=== FILE: README.md ===
# dictalchemy in Dafny

A model of `dictalchemy/utils.py`, the whole working part of dictalchemy. The
library converts an SQLAlchemy-mapped instance to a plain dict (`asdict`) and
applies a plain dict back onto an instance (`fromdict`). It also supplies
`iter` over an instance and `make_class_dictable`, which installs those
behaviours on a class together with five configuration attributes.

What the model covers:

- **Metadata** (`metadata.dfy`). A mapped class is an explicit table of
  descriptors: a property key and a kind (column property with its table
  columns, synonym, or relationship). This table stands in for the mapper's
  `iterate_properties`. The accessors `get_relation_keys`,
  `get_column_keys`, `get_synonym_keys` and `get_primary_key_properties` are
  functions over it.
- **Values and instances**. An instance is its class plus a map from
  attribute key to value. A value is null, an int, a string, a mapped
  instance, an instrumented list, another collection (a set or a keyed
  collection), a plain dict or a plain list. "Has an `asdict` attribute" is
  "is an instance of a class carrying the behaviours" (`IsDictable`).
- **Dicts** (`dicts.dfy`). A Python dict is a sequence of entries read
  last-wins. Iterating it (`Items`) yields one entry per key. This keeps the
  order of the pairs, so a `fromdict` that stops half-way is expressible.
- **Keywords** (`config.dfy`). One keyword record serves both `asdict` and
  `fromdict` calls and every follow bundle:
  - `follow` is normalised to a dict from relation name to bundle, as the
    source does.
  - `exclude_underscore`, `allow_pk` and the lists are resolved against the
    class attributes and the built-in defaults.
  - For the four keywords both functions take, an omitted keyword and an
    explicit `None` are one value, as the source treats them alike. The two
    keywords only one function takes (`exclude_pk`, `allow_pk`) tell an
    omitted keyword from one passed as `None`. Passing either to the
    function that lacks it raises, whatever the value. The `constants` module is not
    part of this model; its three defaults are the constants
    `DefaultExclude = []`, `DefaultExcludeUnderscore = true` and
    `DefaultFromdictAllowPk = false`.
- **`asdict`** (`serializer.dfy`). A pure recursive function returning a
  `Result`. Recursion goes only where the follow bundles say. It terminates
  on the nesting depth of the bundles, whatever cycles the relationships
  form.
- **`fromdict`** (`deserializer.dfy`). A fold over the pairs of `data`. It
  returns the updated instance together with the exception that stopped it,
  if any. Nothing is rolled back.
- **`make_class_dictable` and `iter`** (`augmenter.dfy`).
- **Round trip** (`roundtrip.dfy`). Without `follow` on either side,
  applying an instance's own dict back onto it with `fromdict` changes
  nothing, when the primary key is kept out of the dict or allowed in.
- **Fixtures** (`fixtures.dfy`). Concrete classes shaped like the test
  models of `dictalchemy/tests/__init__.py`, and what the two conversions do
  on them.

Errors are values of `Results.Error`. `ValueError` for a followed
non-relationship is `NotARelation`. The primary-key exception is
`PrimaryKeyUpdate`. `AttributeError` is `NoAttribute`; this includes
`fromdict` given a `data` that is not a dict, which has no `iteritems`. A
`TypeError` for `allow_pk` passed to `asdict`, or `exclude_pk` passed to
`fromdict`, is `UnexpectedKeyword`.
`dict()` of a followed list child that is not a mapping is `NotAMapping`.

The documentation of `fromdict` describes an `exclude` parameter. The code
computes the exclude list but never consults it. The model follows the code
(`Deserializer.FromDict`). The documented behaviour is the separate
`Deserializer.FromDictHonouringExclude`; see Findings.

## Model

| member | source | states |
|---|---|---|
| Metadata.KeysOfType | dictalchemy/utils.py:11-35 | A key is in the list of a given property type exactly when some property of that type has that key. The list is no longer than the property table. `get_relation_keys`, `get_column_keys` and `get_synonym_keys` are `RelationKeys`, `ColumnKeys` and `SynonymKeys`, each this function for one type. |
| Metadata.AnyPrimaryKey | dictalchemy/utils.py:46-49 | True exactly when some underlying column has the primary-key flag. |
| Metadata.PrimaryKeyKeys | dictalchemy/utils.py:38-50 | A property key is collected exactly when the property is a column property with at least one primary-key column. Property keys are collected, not column names. `get_primary_key_properties` is `PrimaryKeyProperties`, this function over the class's properties. |
| Metadata.UnderscoreKeysOf | dictalchemy/utils.py:92-93 | The underscore keys are exactly the keys of properties of any kind that start with `_`. |
| Metadata.GetAttr | dictalchemy/utils.py:104 | `getattr` succeeds exactly when the attribute is set and then yields its value; otherwise it raises `AttributeError` for that key. |
| Metadata.SetAttr | dictalchemy/utils.py:194 | `setattr` binds the key to the value, adds the key, and leaves every other attribute alone. |
| Dicts.Items | dictalchemy/utils.py:188 | Iterating a dict yields each key once, exactly the dict's keys, and only pairs the dict holds. `Dicts.ItemsGet` adds that each yielded pair is the dict's binding. |
| Dicts.FromKeys | dictalchemy/utils.py:80-82 | `dict.fromkeys(names, v)` binds exactly the listed names, each once, all to `v`. The same fallback is at utils.py:158-161. |
| Config.NormalizeFollow | dictalchemy/utils.py:77-82 | A list of names becomes those names, each with no keywords. A dict keeps its keys with the bundle last written under each. An absent `follow` is empty. Anything else fails. Keys are distinct and every bundle nests less deeply than the call. |
| Config.ResolveExcludeUnderscore | dictalchemy/utils.py:87-89 | A value the call passes wins. An omitted one falls back to the class attribute, and an unconfigured class to the default `True`. The same rule is at utils.py:166-168. |
| Config.ResolveAllowPk | dictalchemy/utils.py:175-177 | A value the call passes wins. An omitted keyword or an explicit `None` falls back to the class attribute, and an unconfigured class to the default `False`. |
| Config.CommonExclude | dictalchemy/utils.py:84-93 | The exclude list holds the call's list, the class list (or the default), and the underscore keys exactly when underscore exclusion resolves true; nothing else. The same computation is at utils.py:163-173. |
| Config.AsdictExclude | dictalchemy/utils.py:84-95 | `asdict` adds the primary-key properties to the common list exactly when `exclude_pk` is `True`, and nothing else. `Serializer.PrimaryKeyPolicy` and `Serializer.ExcludeWins` state the effect on the result. |
| Config.FromdictExclude | dictalchemy/utils.py:163-173 | `fromdict` computes the list `asdict` would compute for the same call without `exclude_pk`. |
| Config.AsdictCandidates | dictalchemy/utils.py:97-104 | The columns come first in mapper order. A key is a candidate exactly when it is a column, a synonym, or on the call's or the class's `asdict` include list. |
| Config.FromdictCandidates | dictalchemy/utils.py:179-193 | A key is a candidate exactly when it is a column, a synonym, or on the call's or the class's `fromdict` include list. With equal class include lists the candidates are those of `asdict`. |
| Serializer.BaseDict | dictalchemy/utils.py:97-105 | The base dict binds exactly the candidate keys (columns, synonyms, includes) that are not excluded, each to the instance's attribute unchanged. It fails exactly when such a key is not set on the instance. |
| Serializer.AsDict | dictalchemy/utils.py:53-124 | Passing `allow_pk`, even as `None`, raises `TypeError`. On success, `allow_pk` was not passed, `follow` normalised, and every follow key is a relationship set on the instance. Every key that is not followed is in the result exactly when it is a candidate and not excluded, bound to the attribute. Without `allow_pk` and `follow`, the call succeeds when every non-excluded candidate is set. |
| Serializer.FollowAsDict | dictalchemy/utils.py:107-122 | On success every follow key is a relationship set on the instance. A follow key that is not a relationship makes the call fail, and when it comes first the failure is `ValueError` for that key. Keys that are not followed keep their base-dict entries. |
| Serializer.FollowRelationAsDict | dictalchemy/utils.py:108-122 | One followed key: success needs a relationship key set on the instance. A non-relationship raises `ValueError` for that key. No other key's entry changes. |
| Serializer.FirstNonRelationRaises | dictalchemy/utils.py:107-111 | The first follow key that is not a relationship raises `ValueError` for that key, unless a relation before it already raised; then that earlier error is the outcome. |
| Serializer.RelationStepAt | dictalchemy/utils.py:112-122 | After one follow step, the entry under the followed key is the converted value, or the earlier entry when nothing was converted. |
| Serializer.FollowedValue | dictalchemy/utils.py:112-122 | A value is converted exactly when it is dictable or an instrumented list. A dictable value becomes a dict. A list becomes a list of the same length. |
| Serializer.ChildrenAsDict | dictalchemy/utils.py:116-121 | A followed list converts to a list of the same length whose j-th element is the j-th child's conversion, in the original order. |
| Serializer.ChildAsDict | dictalchemy/utils.py:118-121 | A dictable child becomes its own `asdict(**bundle)` as a dict, and converts exactly when that call succeeds. Any other child converts exactly when it is a dict, and is kept unchanged. |
| Serializer.FollowAsDictAt | dictalchemy/utils.py:107-122 | Under each follow key the follow loop's result holds that relation's converted value, or the earlier entry when nothing was converted. |
| Serializer.FollowedLookup | dictalchemy/utils.py:104-122 | The result under a followed key is its converted value. When nothing was converted it is the base-dict entry, present exactly when the key is a non-excluded candidate. |
| Serializer.FollowedInstance | dictalchemy/utils.py:113-114 | A followed dictable relation is replaced by the related instance's own `asdict(**bundle)`. |
| Serializer.FollowedList | dictalchemy/utils.py:115-122 | A followed instrumented list becomes a list of the same length. A dictable child becomes its `asdict(**bundle)`; any other child must be a dict and stays as it is. |
| Serializer.FollowedOther | dictalchemy/utils.py:112-122 | Any other followed value (null, a set collection, an instance of a plain class) adds nothing under its key. |
| Serializer.FollowedByName | dictalchemy/utils.py:77-82 | A follow list of names passes no keywords to each followed relation. |
| Serializer.UnderscorePolicy | dictalchemy/utils.py:87-93 | For a key that is not followed: when the flag (see `Config.ResolveExcludeUnderscore`) resolves true, no property key starting with `_` is in the result. When it resolves false and no other rule excludes such a candidate, the key is in the result. A followed relation is written whatever its key. |
| Serializer.PrimaryKeyPolicy | dictalchemy/utils.py:94-95 | A primary-key property is dropped when `exclude_pk` is exactly `True`. Otherwise it is present with its value unless another exclusion applies. |
| Serializer.ExcludeWins | dictalchemy/utils.py:84-86 | A key that is not followed and is on the call's or the class's exclude list is absent from the result, whatever the include lists say. A followed relation is written even when excluded. |
| Serializer.Iter | dictalchemy/utils.py:209-212 | Iteration succeeds exactly when the class is augmented and the default `asdict()` succeeds. It yields distinct keys, the same keys as that dict, and each pair is that dict's binding. |
| Serializer.IterPairs | dictalchemy/utils.py:209-212 | A pair is yielded exactly when the default `asdict()` binds that key to that value. |
| Serializer.FollowAsDictSameView | dictalchemy/utils.py:102-122 | The follow loop depends only on the attributes and the relationship keys. |
| Serializer.BaseDictSameAttrs | dictalchemy/utils.py:104-105 | The base dict depends only on the attributes, the candidates and the exclude list. |
| Serializer.AsDictSameView | dictalchemy/utils.py:84-124 | Two classes that agree on relationship keys, candidates and exclude list give the same `asdict` result for the same attributes. |
| Deserializer.Assign | dictalchemy/utils.py:188-194 | The simple loop succeeds exactly when `allow_pk` holds or no pair has a primary-key key; otherwise it raises for such a key. It never removes an attribute and never touches a non-updatable one. |
| Deserializer.Updatable | dictalchemy/utils.py:193 | As written, the assigned keys are exactly the candidates. Honouring the exclude list, they are exactly the candidates not on it. |
| Deserializer.SimpleLoop | dictalchemy/utils.py:188-194 | The simple loop raises exactly when `allow_pk` resolves false and `data` holds a primary-key property, and then for such a key. It keeps the class. |
| Deserializer.AssignEffect | dictalchemy/utils.py:188-194 | When the simple loop completes, each updatable key of `data` holds `data[k]`, and every other attribute is unchanged. |
| Deserializer.AssignStopsAtPrimaryKey | dictalchemy/utils.py:189-192 | At the first primary-key pair without `allow_pk`, the loop raises and keeps exactly the assignments of the pairs before it. |
| Deserializer.AssignStopEffect | dictalchemy/utils.py:188-194 | Where the loop stops, the updatable keys of the processed pairs hold their `data` values and every other attribute is as before. |
| Deserializer.FromDict | dictalchemy/utils.py:127-206 | Passing `exclude_pk`, even as `None`, raises `TypeError` and changes nothing. A `data` that is not a dict raises `AttributeError` (no `iteritems`) and changes nothing. On success `data` was a dict. Every key the follow loop does not handle gains or keeps `data[k]` exactly when it is a candidate (columns, synonyms, includes) present in `data`. Every other such attribute is unchanged. The exclude list plays no part. |
| Deserializer.FromDictHonouringExclude | dictalchemy/utils.py:137-139 | The documented behaviour: an excluded key that the follow loop does not handle is never added or changed. |
| Deserializer.FromDictWith | dictalchemy/utils.py:156-206 | A call that completes was given no `exclude_pk`, a well-formed `follow` and a dict; a `data` without `iteritems` raises `AttributeError` before anything is assigned. No attribute is removed and the class is unchanged. |
| Deserializer.FromDictWithEffect | dictalchemy/utils.py:179-194 | When the call completes, every updatable key of `data` outside the follow loop holds `data[k]`, and no other such attribute changes. |
| Deserializer.FollowFromDict | dictalchemy/utils.py:197-206 | The follow loop keeps the class and the set of attributes. |
| Deserializer.FollowRelationFromDict | dictalchemy/utils.py:197-206 | A follow key absent from `data` is skipped before anything is checked. A present non-relationship raises. The class and the set of attributes are kept. |
| Deserializer.RelationStepFrame | dictalchemy/utils.py:204-206 | A follow step writes only its own key, and only when that key holds a dictable instance, which stays dictable. |
| Deserializer.FollowFromDictKeepsOthers | dictalchemy/utils.py:197-206 | The follow loop leaves alone every attribute that is not followed, not in `data`, or not dictable. A dictable one stays dictable. |
| Deserializer.FollowFromDictAllAbsent | dictalchemy/utils.py:198-199 | When no follow key is in `data`, the follow loop does nothing. |
| Deserializer.FollowFromDictNonRelation | dictalchemy/utils.py:197-203 | A follow key present in `data` that is not a relationship makes the follow loop raise. The outcome is that of the loop over the keys before it, whose children stay updated, with `ValueError` for that key added when that loop completed. |
| Deserializer.RelationStepSameKey | dictalchemy/utils.py:197-206 | A follow step reads the instance only at its own key and through the relationship keys. |
| Deserializer.RelationStepChild | dictalchemy/utils.py:204-206 | On a dictable relation present in `data`, a follow step is the child's own `fromdict(data[k], **bundle)`, written back, with the child's outcome. |
| Deserializer.FollowFromDictAt | dictalchemy/utils.py:197-206 | When the follow loop completes, each followed key holds what its own step made of the starting instance. |
| Deserializer.FollowedRelationUpdated | dictalchemy/utils.py:204-206 | When `fromdict` completes, a followed dictable relation present in `data` holds the related instance updated by its own `fromdict(data[k], **bundle)`, which also completed. |
| Deserializer.ListsNotTraversed | dictalchemy/utils.py:204-206 | A list, or any other value that is not dictable, is never changed by the follow loop. |
| Deserializer.AbsentFollowKeysSkipped | dictalchemy/utils.py:198-199 | When no follow key is in `data`, the call is exactly its simple loop, even for follow keys that are not relationships. |
| Deserializer.PresentNonRelationRaises | dictalchemy/utils.py:197-203 | Once the simple loop completes, a follow key present in `data` that is not a relationship makes the call raise. The call ends as the follow loop over the keys before it ends, with `ValueError` for that key added when that loop completed. |
| Deserializer.PrimaryKeyProtected | dictalchemy/utils.py:175-192 | Without `allow_pk`, a primary-key property in `data` makes the call raise at the first such pair. The instance keeps exactly the assignments before it; nothing is rolled back. |
| Deserializer.StoppedCallIsSimpleLoop | dictalchemy/utils.py:188-192 | A simple loop that raises is the whole call's outcome. The follow loop does not run. |
| Deserializer.AllowPkAssigns | dictalchemy/utils.py:175-177 | In a call without `follow`, with `allow_pk` resolved true, a primary-key column in `data` is assigned like any other column. |
| Deserializer.ExcludeIgnored | dictalchemy/utils.py:163-173 | The call's `exclude` and `exclude_underscore` do not change the outcome at all. |
| Deserializer.AssignSameAttrs | dictalchemy/utils.py:188-194 | The simple loop depends only on the instance's attributes. |
| Deserializer.SimpleLoopSameView | dictalchemy/utils.py:175-194 | The simple loop depends only on the candidates, the resolved `allow_pk` and the primary-key properties. |
| Deserializer.FollowFromDictSameView | dictalchemy/utils.py:197-206 | The follow loop depends only on the attributes and the relationship keys. |
| Deserializer.FromDictSameView | dictalchemy/utils.py:175-206 | Two classes that agree on candidates, resolved `allow_pk`, primary keys and relationship keys update the same attributes in the same way. |
| Deserializer.FirstIn | dictalchemy/utils.py:188-192 | The position of the first pair whose key is in the set: its key is in the set and no earlier key is. |
| Augmenter.MakeClassDictable | dictalchemy/utils.py:215-247 | The mapping is untouched and the class becomes dictable. A later call that omits `exclude_underscore` or `allow_pk` resolves them to the stored values. The stored exclude list is always excluded. The stored include lists extend the candidates. |
| Augmenter.LastCallWins | dictalchemy/utils.py:239-246 | Every attribute is overwritten: applying it twice equals applying the second call, so the same arguments twice give the same class. |
| Augmenter.DefaultsChangeNothing | dictalchemy/utils.py:215-218 | With its defaults it changes neither `asdict` nor `fromdict` on an unconfigured class. |
| Augmenter.CallSiteUnderscoreOverridesClass | dictalchemy/utils.py:87-89 | An `asdict` call that passes `exclude_underscore` gets the same dict whatever underscore flag or `allow_pk` the class stores. |
| Augmenter.CallSiteAllowPkOverridesClass | dictalchemy/utils.py:175-177 | A `fromdict` call that passes a value for `allow_pk` updates the instance the same way whatever `allow_pk`, exclude list or underscore flag the class stores. |
| RoundTrip.AsDictFromDict | dictalchemy/utils.py:53-206 | Without `follow`, `fromdict` of an instance's own `asdict` raises nothing and leaves the instance exactly as it was, when `asdict` used `exclude_pk=True` or `fromdict`'s `allow_pk` resolves true. |
| Augmenter.AugmentedIterates | dictalchemy/utils.py:244 | Iterating an augmented instance succeeds exactly when its default `asdict()` does. |
| Fixtures.NamedShape | dictalchemy/tests/__init__.py:34-37 | `Named` has columns `id`, `name`, no synonyms or relationships, and primary key `id`. |
| Fixtures.SynonymShape | dictalchemy/tests/__init__.py:62-74 | `NamedWithSynonym` has columns `id`, `_name` and the synonym `name`. Its only underscore key is `_name`. |
| Fixtures.ParentShape | dictalchemy/tests/__init__.py:105-117 | `OneToManyParent` has three columns and the single relationship `child`. |
| Fixtures.LeftShape | dictalchemy/tests/__init__.py:150-162 | `M2mLeft` has columns `id`, `name` and the relationship `rights`. |
| Fixtures.PrimaryKeysByPropertyKey | dictalchemy/tests/__init__.py:43-46 | The property `id` over column `other_id` is a primary-key property; `other_id` is not. |
| Fixtures.NamedAsDictAt | dictalchemy/utils.py:97-105 | A default `asdict()` of `Named` is `{id, name}` in mapper order. |
| Fixtures.NamedAsDictExcludePk | dictalchemy/utils.py:94-95 | `exclude_pk=True` leaves only `name`. |
| Fixtures.SynonymHidesUnderscoreColumn | dictalchemy/utils.py:87-105 | The synonym `name` is serialised and the underscore column `_name` behind it is not. |
| Fixtures.FollowingAColumnRaises | dictalchemy/utils.py:107-111 | Following the column `name` raises. |
| Fixtures.FollowedChildNests | dictalchemy/utils.py:113-114 | Following `child` nests the child's own dict. |
| Fixtures.FollowedListNests | dictalchemy/utils.py:115-122 | Following the list `rights` nests the list of its children's dicts. |
| Fixtures.MissingChildContributesNothing | dictalchemy/utils.py:112-122 | A null `child` is followed and adds nothing. |
| Fixtures.NamedFromDictColumn | dictalchemy/utils.py:193-194 | `fromdict({'name': v})` sets `name` and nothing else. |
| Fixtures.NamedFromDictPrimaryKeyRefused | dictalchemy/utils.py:189-192 | `fromdict({'id': 2})` raises and changes nothing. |
| Fixtures.NamedRoundTripRefused | dictalchemy/utils.py:189-192 | With default keywords on both sides the round trip on `Named` raises `PrimaryKeyUpdate("id")` and changes nothing: `asdict` keeps the primary key and `fromdict` refuses it. |
| Fixtures.NamedFromDictPrimaryKeyAllowed | dictalchemy/utils.py:175-177 | With `allow_pk=True` the same call sets `id`. |
| Fixtures.ExcludedUnderscoreColumnAssigned | dictalchemy/utils.py:163-194 | As written, `fromdict({'_name': 'x'})` assigns `_name` although `_name` is on its own exclude list. Honouring the list leaves `_name` alone. |
| Fixtures.FromDictFollowsChild | dictalchemy/utils.py:197-206 | `fromdict` with `follow=['child']` updates the child through the child's own `fromdict` and writes nothing else. |

## Left out

- The mapper reflection (`__mapper__.iterate_properties`, the `isinstance` tests) is replaced by the explicit descriptor table. SQLAlchemy itself is not part of this model.
- `hasattr(x, 'asdict')` duck typing is modelled as "an instance of a class carrying the behaviours". A plain object that happens to define `asdict` is not modelled.
- `exclude += ...` mutates the caller's own `exclude` list when one is passed, including a list inside a follow bundle passed on through `**args`. The class's `dictalchemy_exclude` is only read. The model computes the exclude list as a fresh set and does not model the growth of the caller's list.
- `dict(follow)` on a list of names is modelled as the source's fallback to `dict.fromkeys`. The quirk where a two-character name is read as a key/value pair is not modelled.
- Python 2 dict iteration order is not modelled. `data` and follow dicts keep the order of their entries, and iterating one yields each key once.
- Synonym descriptors are not modelled as forwarding: `name` and `_name` of `NamedWithSynonym` are separate attribute slots.
- Object identity is not modelled. `fromdict` on a followed relation mutates the related instance in place. Instances here are values, so the model writes the updated child back under its key. Another reference to the same child does not see the update.
- Augmenter.MakeClassDictable: class inheritance is not modelled. The source's main use is to augment a declarative `Base`, so that every mapped subclass finds the behaviours and the `dictalchemy_*` attributes by attribute lookup, and a subclass that sets its own attributes overrides the base's. The model applies the augmenter to each mapped class directly; configuration a subclass inherits from an augmented base, or overrides, is not represented, and `Augmenter.LastCallWins` speaks only of the class passed in.
- Keywords outside the six that `asdict` and `fromdict` name cannot be written in the keyword record, so the `TypeError` an unknown keyword raises, including one inside a follow bundle passed on through `**args` (utils.py:119, 206), is not modelled.
- Classes are values too. `make_class_dictable` mutates the class in place (utils.py:239-246), so instances that already exist, related children included, gain `asdict` and `fromdict`. `Augmenter.MakeClassDictable` returns a new class value; instances built on the old value stay non-dictable.
- An instance need not hold every mapped attribute. `GetAttr`, and so `BaseDict`, raise `NoAttribute` on an unset column, where SQLAlchemy's `getattr` yields the column's value, `None` when it was never set. An instance that holds every mapped attribute behaves as the source does.
- Hybrid properties and `attribute_mapped_collection` are host-framework behaviour. They are modelled as plain included attributes and as non-list collections.
- `dict(child)` of an iterable of pairs is not modelled: only a child that already is a dict survives.
- An empty property key: the source's `k.key[0]` raises `IndexError`. The model treats such a key as not starting with `_`.
- Instance attributes that shadow the class configuration attributes are not modelled; configuration is read from the class.
- `exclude_pk` values that are truthy but not `True` are modelled only through the "exactly `True`" test the source applies.
- The package's `DictableModel` base class and `arg_to_dict` are not part of this model. Neither is `dictalchemy/tests/__init__.py`, which is used only as a source of example classes. Its `AsHalMixin` helper is not modelled.
- `OneToManyChild` and `M2mRight` each carry a backref relationship (`parent` and `lefts`) that `Named` lacks. A relationship is never a candidate and is read only when followed, so it does not change a default `asdict` or `fromdict`. The fixtures therefore use `Named` instances as their stand-ins.

## Findings

| source | as written | input that shows it | evidently intended | confidence | as-written member | corrected member |
|---|---|---|---|---|---|---|
| dictalchemy/utils.py:163-194 | `fromdict` builds its exclude list from `exclude`, the class list and the underscore keys, then assigns every key in `columns + synonyms + include` without consulting that list | `NamedWithSynonym` instance, `fromdict({'_name': 'x'})` with default keywords: `_name` is excluded by the underscore rule yet is assigned | a key on the exclude list is not assigned, as the `exclude` and `exclude_underscore` parameters are documented | medium, not executed | Fixtures.ExcludedUnderscoreColumnAssigned | Deserializer.FromDictHonouringExclude |

=== FILE: augmenter.dfy ===
/** `make_class_dictable` (dictalchemy/utils.py:215-247): installing the
    three behaviours on a class and overwriting its five configuration
    attributes. */
module Augmenter {
  import opened Results
  import opened Metadata
  import opened Config
  import opened Serializer
  import opened Deserializer

  /** The five keyword arguments of `make_class_dictable`. A Python `None`
      passed for a list is the empty list, and for a flag is `false`, which
      is how every reader of these attributes treats it. */
  datatype Options = Options(
    exclude: seq<string>,
    excludeUnderscore: bool,
    fromdictAllowPk: bool,
    asdictInclude: seq<string>,
    fromdictInclude: seq<string>)

  /** The keyword defaults of `make_class_dictable`. */
  const DefaultOptions := Options(DefaultExclude, DefaultExcludeUnderscore, DefaultFromdictAllowPk, [], [])

  /** `make_class_dictable(cls, **options)`: the mapping is untouched, the
      class becomes dictable, and a call that leaves a keyword out resolves
      it to the value stored here, whatever was configured before. */
  function MakeClassDictable(c: MappedClass, o: Options): (r: MappedClass)
    ensures r.name == c.name && r.props == c.props
    ensures r.dictable
    ensures RelationKeys(r) == RelationKeys(c) && PrimaryKeyProperties(r) == PrimaryKeyProperties(c)
    ensures forall kw: Kwargs :: kw.excludeUnderscore.None? ==> ResolveExcludeUnderscore(r, kw) == o.excludeUnderscore
    ensures forall kw: Kwargs :: (kw.allowPk.Omitted? || kw.allowPk == Given(None)) ==> ResolveAllowPk(r, kw) == o.fromdictAllowPk
    ensures forall kw: Kwargs :: Elems(o.exclude) <= CommonExclude(r, kw)
    ensures forall kw: Kwargs :: AsdictCandidates(r, kw) == ColumnKeys(c) + SynonymKeys(c) + kw.includes.GetOr([]) + o.asdictInclude
    ensures forall kw: Kwargs :: FromdictCandidates(r, kw) == ColumnKeys(c) + SynonymKeys(c) + kw.includes.GetOr([]) + o.fromdictInclude
  {
    var config := ClassConfig(
      Some(o.exclude), Some(o.excludeUnderscore), Some(o.fromdictAllowPk),
      Some(o.asdictInclude), Some(o.fromdictInclude));
    MappedClass(c.name, c.props, config, true)
  }

  /** Every attribute is overwritten: a second call leaves no trace of the
      first. */
  lemma LastCallWins(c: MappedClass, o1: Options, o2: Options)
    ensures MakeClassDictable(MakeClassDictable(c, o1), o2) == MakeClassDictable(c, o2)
  {
  }

  /** With its default arguments, `make_class_dictable` changes nothing
      `asdict` or `fromdict` does on an unconfigured class: the stored
      defaults are the ones every reader falls back to. */
  lemma DefaultsChangeNothing(c: MappedClass, attrs: map<string, Value>, data: Value, kw: Kwargs)
    requires c.config == Unconfigured
    ensures var d := MakeClassDictable(c, DefaultOptions);
            && AsDict(Instance(d, attrs), kw) == AsDict(Instance(c, attrs), kw)
            && FromDict(Instance(d, attrs), data, kw).err == FromDict(Instance(c, attrs), data, kw).err
            && FromDict(Instance(d, attrs), data, kw).inst.attrs == FromDict(Instance(c, attrs), data, kw).inst.attrs
  {
    var d := MakeClassDictable(c, DefaultOptions);
    assert UnderscoreKeys(d) == UnderscoreKeys(c);
    assert AsdictExclude(d, kw) == AsdictExclude(c, kw);
    AsDictSameView(Instance(d, attrs), Instance(c, attrs), kw);
    FromDictSameView(Instance(d, attrs), Instance(c, attrs), data, kw);
  }

  /** A call's own `exclude_underscore` beats the class attribute in
      `asdict` (utils.py:87-89): the same call gives the same dict on a class
      augmented with another underscore flag or another `allow_pk`. */
  lemma CallSiteUnderscoreOverridesClass(c: MappedClass, o1: Options, o2: Options, attrs: map<string, Value>, kw: Kwargs)
    requires o1.exclude == o2.exclude && o1.asdictInclude == o2.asdictInclude
    requires kw.excludeUnderscore.Some?
    ensures AsDict(Instance(MakeClassDictable(c, o1), attrs), kw) == AsDict(Instance(MakeClassDictable(c, o2), attrs), kw)
  {
    var d1 := MakeClassDictable(c, o1);
    var d2 := MakeClassDictable(c, o2);
    assert AsdictExclude(d1, kw) == AsdictExclude(d2, kw);
    AsDictSameView(Instance(d1, attrs), Instance(d2, attrs), kw);
  }

  /** A call's own `allow_pk` beats the class attribute in `fromdict`
      (utils.py:175-177): the same call updates the instance the same way
      on a class augmented with another `allow_pk`, and whatever exclude
      settings it stores. */
  lemma CallSiteAllowPkOverridesClass(c: MappedClass, o1: Options, o2: Options, attrs: map<string, Value>, data: Value, kw: Kwargs)
    requires o1.fromdictInclude == o2.fromdictInclude
    requires kw.allowPk.Given? && kw.allowPk.arg.Some?
    ensures var d1 := MakeClassDictable(c, o1);
            var d2 := MakeClassDictable(c, o2);
            && FromDict(Instance(d1, attrs), data, kw).err == FromDict(Instance(d2, attrs), data, kw).err
            && FromDict(Instance(d1, attrs), data, kw).inst.attrs == FromDict(Instance(d2, attrs), data, kw).inst.attrs
  {
    var d1 := MakeClassDictable(c, o1);
    var d2 := MakeClassDictable(c, o2);
    FromDictSameView(Instance(d1, attrs), Instance(d2, attrs), data, kw);
  }

  /** An augmented class is iterable: iterating an instance succeeds exactly
      when its default `asdict()` does. */
  lemma AugmentedIterates(c: MappedClass, o: Options, attrs: map<string, Value>)
    ensures var inst := Instance(MakeClassDictable(c, o), attrs);
            Iter(inst).Ok? <==> AsDict(inst, NoKwargs).Ok?
  {
  }
}

=== FILE: config.dfy ===
/** Keyword arguments, follow specifications, the built-in defaults, and
    how a call's keywords combine with the class configuration
    (dictalchemy/utils.py:77-105 and 156-185). */
module Config {
  import opened Results
  import opened Dicts
  import opened Metadata

  /** `constants.default_exclude`. */
  const DefaultExclude: seq<string> := []
  /** `constants.default_exclude_underscore`. */
  const DefaultExcludeUnderscore: bool := true
  /** `constants.default_fromdict_allow_pk`. */
  const DefaultFromdictAllowPk: bool := false

  /** A keyword that only one of the two functions accepts, where passing it
      at all matters: `Given(None)` is an explicit Python `None`. */
  datatype Keyword<T> = Omitted | Given(arg: Option<T>)

  /** The keyword arguments of a call to `asdict` or `fromdict`; a follow
      bundle is the same record. For the four keywords both functions
      accept, `None` is an omitted keyword or an explicit Python `None`,
      which the source treats alike. `asdict` does not accept `allow_pk` and
      `fromdict` does not accept `exclude_pk`, so for those two the record
      tells an omitted keyword from one passed as `None`. */
  datatype Kwargs = Kwargs(
    exclude: Option<seq<string>>,
    excludeUnderscore: Option<bool>,
    excludePk: Keyword<bool>,
    allowPk: Keyword<bool>,
    follow: Option<FollowArg>,
    includes: Option<seq<string>>)

  /** The `follow` argument: a dict from relation name to a bundle, a list of
      names, or anything else (which `dict()` cannot convert). */
  datatype FollowArg =
    | FollowDict(entries: Dict<Kwargs>)
    | FollowNames(names: seq<string>)
    | FollowOther

  /** `{}`: no keywords at all. */
  const NoKwargs := Kwargs(None, None, Omitted, Omitted, None, None)

  /** How deeply follow bundles nest; recursion through `follow` decreases it. */
  function Depth(kw: Kwargs): nat
  {
    match kw.follow
    case Some(FollowDict(es)) => 1 + MaxDepth(es)
    case Some(_) => 1
    case None => 0
  }

  function MaxDepth(es: Dict<Kwargs>): nat
  {
    if |es| == 0 then 0
    else
      var d := Depth(es[0].val);
      var m := MaxDepth(es[1..]);
      if d < m then m else d
  }

  lemma {:induction false} MaxDepthBound(es: Dict<Kwargs>, i: int)
    requires 0 <= i < |es|
    ensures Depth(es[i].val) <= MaxDepth(es)
    decreases |es|
  {
    if i > 0 {
      assert es[1..][i - 1] == es[i];
      MaxDepthBound(es[1..], i - 1);
    }
  }

  /** The follow dict a call iterates (utils.py:77-82): nothing for `None`,
      the dict itself, or each listed name bound to `{}`; anything else
      raises. Every bundle nests less deeply than the call's keywords. */
  function NormalizeFollow(kw: Kwargs): (r: Result<Dict<Kwargs>>)
    ensures r.Ok? <==> !kw.follow.Some? || !kw.follow.value.FollowOther?
    ensures r.Ok? ==> DistinctKeys(r.value)
    ensures r.Ok? && kw.follow.Some? && kw.follow.value.FollowNames? ==>
              (forall k :: k in Keys(r.value) <==> k in kw.follow.value.names)
              && forall i :: 0 <= i < |r.value| ==> r.value[i].val == NoKwargs
    ensures r.Ok? && kw.follow.Some? && kw.follow.value.FollowDict? ==>
              Keys(r.value) == Keys(kw.follow.value.entries)
              && forall i :: 0 <= i < |r.value| ==> Get(kw.follow.value.entries, r.value[i].key) == Some(r.value[i].val)
    ensures r.Ok? && kw.follow.None? ==> r.value == []
    ensures r.Ok? ==> forall i :: 0 <= i < |r.value| ==> Depth(r.value[i].val) < Depth(kw)
  {
    match kw.follow
    case None => Ok([])
    case Some(FollowNames(names)) => Ok(FromKeys(names, NoKwargs))
    case Some(FollowOther) => Err(MalformedFollow)
    case Some(FollowDict(es)) =>
      var items := Items(es);
      assert forall i :: 0 <= i < |items| ==> Depth(items[i].val) < Depth(kw) by {
        forall i | 0 <= i < |items| ensures Depth(items[i].val) < Depth(kw) {
          var j :| 0 <= j < |es| && es[j] == items[i];
          MaxDepthBound(es, j);
        }
      }
      assert forall i :: 0 <= i < |items| ==> Get(es, items[i].key) == Some(items[i].val) by {
        forall i | 0 <= i < |items| ensures Get(es, items[i].key) == Some(items[i].val) {
          ItemsArePairs(es, i);
        }
      }
      Ok(items)
  }

  /** The relation names a call follows (none when `follow` is malformed). */
  function FollowKeys(kw: Kwargs): set<string>
  {
    match NormalizeFollow(kw)
    case Ok(f) => Keys(f)
    case Err(_) => {}
  }

  /** The bundle a call passes along a followed relation. */
  function FollowBundle(kw: Kwargs, k: string): Kwargs
  {
    match NormalizeFollow(kw)
    case Ok(f) => Get(f, k).GetOr(NoKwargs)
    case Err(_) => NoKwargs
  }

  function Elems(s: seq<string>): set<string>
  {
    set k | k in s
  }

  /** `exclude_underscore` (utils.py:87-89, 166-168): a value the call
      passes wins; an omitted one falls back to the class attribute, and an
      unconfigured class to the default. */
  function ResolveExcludeUnderscore(c: MappedClass, kw: Kwargs): (b: bool)
    ensures kw.excludeUnderscore.Some? ==> b == kw.excludeUnderscore.value
    ensures kw.excludeUnderscore.None? && c.config.excludeUnderscore.Some? ==> b == c.config.excludeUnderscore.value
    ensures kw.excludeUnderscore.None? && c.config.excludeUnderscore.None? ==> b == DefaultExcludeUnderscore
  {
    kw.excludeUnderscore.GetOr(c.config.excludeUnderscore.GetOr(DefaultExcludeUnderscore))
  }

  /** `allow_pk` (utils.py:175-177): a value the call passes wins; an
      omitted keyword or an explicit `None` falls back to the class
      attribute, and an unconfigured class to the default. */
  function ResolveAllowPk(c: MappedClass, kw: Kwargs): (b: bool)
    ensures kw.allowPk.Given? && kw.allowPk.arg.Some? ==> b == kw.allowPk.arg.value
    ensures (kw.allowPk.Omitted? || kw.allowPk == Given(None)) && c.config.fromdictAllowPk.Some? ==> b == c.config.fromdictAllowPk.value
    ensures (kw.allowPk.Omitted? || kw.allowPk == Given(None)) && c.config.fromdictAllowPk.None? ==> b == DefaultFromdictAllowPk
  {
    match kw.allowPk
    case Given(Some(v)) => v
    case _ => c.config.fromdictAllowPk.GetOr(DefaultFromdictAllowPk)
  }

  /** The exclude list both directions compute (utils.py:84-93, 163-173): it
      holds every key of the call's list and of the class list (or the
      default), the underscore keys exactly when underscore exclusion
      resolves true, and nothing else. */
  function CommonExclude(c: MappedClass, kw: Kwargs): (ex: set<string>)
    ensures forall k :: k in kw.exclude.GetOr([]) ==> k in ex
    ensures forall k :: k in c.config.exclude.GetOr(DefaultExclude) ==> k in ex
    ensures ResolveExcludeUnderscore(c, kw) ==> UnderscoreKeys(c) <= ex
    ensures forall k :: k in ex && k !in kw.exclude.GetOr([]) && k !in c.config.exclude.GetOr(DefaultExclude) ==>
              ResolveExcludeUnderscore(c, kw) && k in UnderscoreKeys(c)
  {
    Elems(kw.exclude.GetOr([]))
    + Elems(c.config.exclude.GetOr(DefaultExclude))
    + (if ResolveExcludeUnderscore(c, kw) then UnderscoreKeys(c) else {})
  }

  /** `asdict`'s exclude list (utils.py:84-95): the common list, joined by
      the primary-key properties exactly when `exclude_pk` is `True` (a
      truthy value other than `True` does not count). */
  function AsdictExclude(c: MappedClass, kw: Kwargs): (ex: set<string>)
    ensures CommonExclude(c, kw) <= ex
    ensures kw.excludePk == Given(Some(true)) ==> PrimaryKeyProperties(c) <= ex
    ensures forall k :: k in ex && k !in CommonExclude(c, kw) ==> kw.excludePk == Given(Some(true)) && k in PrimaryKeyProperties(c)
  {
    CommonExclude(c, kw) + (if kw.excludePk == Given(Some(true)) then PrimaryKeyProperties(c) else {})
  }

  /** `fromdict`'s exclude list (utils.py:163-173): the list `asdict` would
      compute for the same call without `exclude_pk`. */
  function FromdictExclude(c: MappedClass, kw: Kwargs): (ex: set<string>)
    ensures ex == AsdictExclude(c, kw.(excludePk := Omitted))
  {
    CommonExclude(c, kw)
  }

  /** `columns + synonyms + include` for `asdict` (utils.py:97-104): the
      columns first, in mapper order, and a key is a candidate exactly when
      it is a column, a synonym, or on the call's or the class's include
      list. */
  function AsdictCandidates(c: MappedClass, kw: Kwargs): (ks: seq<string>)
    ensures |ColumnKeys(c)| <= |ks| && ks[..|ColumnKeys(c)|] == ColumnKeys(c)
    ensures forall k :: k in ks <==>
              k in ColumnKeys(c) || k in SynonymKeys(c) || k in kw.includes.GetOr([]) || k in c.config.asdictInclude.GetOr([])
  {
    ColumnKeys(c) + SynonymKeys(c) + kw.includes.GetOr([]) + c.config.asdictInclude.GetOr([])
  }

  /** `columns + synonyms + include` for `fromdict` (utils.py:179-193): the
      same as for `asdict` except that the class contributes its `fromdict`
      include list. */
  function FromdictCandidates(c: MappedClass, kw: Kwargs): (ks: seq<string>)
    ensures c.config.fromdictInclude == c.config.asdictInclude ==> ks == AsdictCandidates(c, kw)
    ensures forall k :: k in ks <==>
              k in ColumnKeys(c) || k in SynonymKeys(c) || k in kw.includes.GetOr([]) || k in c.config.fromdictInclude.GetOr([])
  {
    ColumnKeys(c) + SynonymKeys(c) + kw.includes.GetOr([]) + c.config.fromdictInclude.GetOr([])
  }
}

=== FILE: deserializer.dfy ===
/** `fromdict` (dictalchemy/utils.py:127-206): a fold over the pairs of
    `data` that returns the updated instance together with the exception
    that stopped it, if any. Nothing is rolled back: the instance carries
    every assignment made before the error. */
module Deserializer {
  import opened Results
  import opened Dicts
  import opened Metadata
  import opened Config

  /** The instance after a call, and the exception the call raised. */
  datatype Applied = Applied(inst: Instance, err: Option<Error>)

  /** The keys `fromdict` assigns. As written, the source tests membership in
      `columns + synonyms + include` only; `honourExclude` also removes the
      exclude list it computes, as its documentation promises. */
  function Updatable(c: MappedClass, kw: Kwargs, honourExclude: bool): (upd: set<string>)
    ensures forall k :: k in upd ==> k in FromdictCandidates(c, kw)
    ensures !honourExclude ==> forall k :: k in FromdictCandidates(c, kw) ==> k in upd
    ensures honourExclude ==> forall k :: k in FromdictCandidates(c, kw) ==> (k in upd <==> k !in FromdictExclude(c, kw))
  {
    set k | k in FromdictCandidates(c, kw) && (!honourExclude || k !in FromdictExclude(c, kw))
  }

  /** The first loop of `fromdict` (utils.py:188-194): a primary-key key
      without `allow_pk` raises; an updatable key is assigned; any other key
      is ignored. */
  function Assign(inst: Instance, items: Dict<Value>, allowPk: bool, pks: set<string>, updatable: set<string>): (r: Applied)
    ensures r.inst.cls == inst.cls
    ensures inst.attrs.Keys <= r.inst.attrs.Keys
    ensures forall k :: k in inst.attrs && k !in updatable ==> r.inst.attrs[k] == inst.attrs[k]
    ensures r.err.None? <==> allowPk || forall i :: 0 <= i < |items| ==> items[i].key !in pks
    ensures r.err.Some? ==> exists i :: 0 <= i < |items| && items[i].key in pks && r.err.value == PrimaryKeyUpdate(items[i].key)
    decreases |items|
  {
    if |items| == 0 then Applied(inst, None)
    else
      var e := items[0];
      assert forall i :: 1 <= i < |items| ==> items[i] == items[1..][i - 1];
      if !allowPk && e.key in pks then Applied(inst, Some(PrimaryKeyUpdate(e.key)))
      else
        var next := if e.key in updatable then SetAttr(inst, e.key, e.val) else inst;
        Assign(next, items[1..], allowPk, pks, updatable)
  }

  /** The simple loop's effect when it completes: `data[k]` is assigned to
      every updatable key of `data`, and no other attribute changes. */
  lemma {:induction false} AssignEffect(inst: Instance, items: Dict<Value>, allowPk: bool, pks: set<string>, updatable: set<string>)
    requires Assign(inst, items, allowPk, pks, updatable).err.None?
    ensures var r := Assign(inst, items, allowPk, pks, updatable).inst;
            && (forall k :: k in r.attrs <==> k in inst.attrs || (k in updatable && k in Keys(items)))
            && (forall k :: k in r.attrs ==>
                  r.attrs[k] == if k in updatable && k in Keys(items) then Get(items, k).value else inst.attrs[k])
    decreases |items|
  {
    if |items| > 0 {
      var e := items[0];
      var rest := items[1..];
      assert items == [e] + rest;
      var next := if e.key in updatable then SetAttr(inst, e.key, e.val) else inst;
      AssignEffect(next, rest, allowPk, pks, updatable);
      forall k ensures Get(items, k) == if k in Keys(rest) then Get(rest, k) else if e.key == k then Some(e.val) else None {
        GetPrepend(e, rest, k);
      }
    }
  }

  /** A primary-key key without `allow_pk` stops the loop: the instance keeps
      exactly the assignments of the pairs before it. */
  lemma {:induction false} AssignStopsAtPrimaryKey(inst: Instance, items: Dict<Value>, pks: set<string>, updatable: set<string>, j: int)
    requires 0 <= j < |items| && items[j].key in pks
    requires forall i :: 0 <= i < j ==> items[i].key !in pks
    ensures Assign(inst, items, false, pks, updatable)
            == Applied(Assign(inst, items[..j], false, pks, updatable).inst, Some(PrimaryKeyUpdate(items[j].key)))
    decreases j
  {
    if j > 0 {
      var e := items[0];
      var next := if e.key in updatable then SetAttr(inst, e.key, e.val) else inst;
      assert items[1..][..j - 1] == items[..j][1..];
      AssignStopsAtPrimaryKey(next, items[1..], pks, updatable, j - 1);
    }
  }

  /** The simple loop of a call: the pairs of `data` against the call's
      resolved `allow_pk`, primary-key properties and updatable keys. It
      raises exactly when `allow_pk` resolves false and `data` holds a
      primary-key property, and then for such a key. */
  function SimpleLoop(inst: Instance, entries: Dict<Value>, kw: Kwargs, honourExclude: bool): (r: Applied)
    ensures r.inst.cls == inst.cls
    ensures r.err.None? <==> ResolveAllowPk(inst.cls, kw) || forall k :: k in Keys(entries) ==> k !in PrimaryKeyProperties(inst.cls)
    ensures r.err.Some? ==> exists k :: k in Keys(entries) && k in PrimaryKeyProperties(inst.cls) && r.err.value == PrimaryKeyUpdate(k)
  {
    ItemKeys(entries);
    Assign(inst, Items(entries), ResolveAllowPk(inst.cls, kw), PrimaryKeyProperties(inst.cls), Updatable(inst.cls, kw, honourExclude))
  }

  /** `fromdict(inst, data, **kw)`, as written. */
  function FromDict(inst: Instance, data: Value, kw: Kwargs): (r: Applied)
    ensures r.inst.cls == inst.cls
    ensures kw.excludePk.Given? ==> r == Applied(inst, Some(UnexpectedKeyword("exclude_pk")))
    ensures kw.excludePk.Omitted? && NormalizeFollow(kw).Ok? && !data.PlainDict? ==> r == Applied(inst, Some(NoAttribute("iteritems")))
    ensures r.err.None? ==> data.PlainDict?
    ensures r.err.None? ==> forall k :: k !in FollowKeys(kw) || k !in Keys(data.entries) ==>
              (k in r.inst.attrs <==> k in inst.attrs || (k in FromdictCandidates(inst.cls, kw) && k in Keys(data.entries)))
    ensures r.err.None? ==> forall k :: (k !in FollowKeys(kw) || k !in Keys(data.entries)) && k in r.inst.attrs ==>
              r.inst.attrs[k] == if k in FromdictCandidates(inst.cls, kw) && k in Keys(data.entries)
                                 then Get(data.entries, k).value else inst.attrs[k]
  {
    var r := FromDictWith(inst, data, kw, false);
    if r.err.None? then FromDictWithEffect(inst, data, kw, false); r else r
  }

  /** `fromdict` with its exclude list honoured: the definition the source's
      documentation describes. */
  function FromDictHonouringExclude(inst: Instance, data: Value, kw: Kwargs): (r: Applied)
    ensures r.inst.cls == inst.cls
    ensures r.err.None? ==> data.PlainDict?
    ensures r.err.None? ==> forall k :: k in FromdictExclude(inst.cls, kw) && (k !in FollowKeys(kw) || k !in Keys(data.entries)) ==>
              (k in r.inst.attrs <==> k in inst.attrs) && (k in inst.attrs ==> r.inst.attrs[k] == inst.attrs[k])
  {
    var r := FromDictWith(inst, data, kw, true);
    if r.err.None? then FromDictWithEffect(inst, data, kw, true); r else r
  }

  /** `fromdict`, parameterised by whether assignment honours the exclude
      list. A call passing `exclude_pk` raises before anything else; then
      `follow` is normalised, `data` must be a dict (anything else lacks
      `iteritems`), the simple loop runs, and then the follow loop. */
  function FromDictWith(inst: Instance, data: Value, kw: Kwargs, honourExclude: bool): (r: Applied)
    decreases Depth(kw), 2
    ensures r.inst.cls == inst.cls
    ensures inst.attrs.Keys <= r.inst.attrs.Keys
    ensures r.err.None? ==> kw.excludePk.Omitted? && NormalizeFollow(kw).Ok? && data.PlainDict?
    ensures kw.excludePk.Omitted? && NormalizeFollow(kw).Ok? && !data.PlainDict? ==> r == Applied(inst, Some(NoAttribute("iteritems")))
  {
    if kw.excludePk.Given? then Applied(inst, Some(UnexpectedKeyword("exclude_pk")))
    else
      match NormalizeFollow(kw)
      case Err(e) => Applied(inst, Some(e))
      case Ok(follow) =>
        if !data.PlainDict? then Applied(inst, Some(NoAttribute("iteritems")))
        else
          var c := inst.cls;
          var simple := SimpleLoop(inst, data.entries, kw, honourExclude);
          if simple.err.Some? then simple
          else FollowFromDict(simple.inst, Depth(kw), follow, data.entries, honourExclude)
  }

  /** A call that completes assigns `data[k]` to every updatable key of
      `data` the follow loop does not handle, and changes no other such
      attribute. */
  lemma FromDictWithEffect(inst: Instance, data: Value, kw: Kwargs, honourExclude: bool)
    requires FromDictWith(inst, data, kw, honourExclude).err.None?
    ensures var r := FromDictWith(inst, data, kw, honourExclude);
            && (forall k :: k !in FollowKeys(kw) || k !in Keys(data.entries) ==>
                  (k in r.inst.attrs <==> k in inst.attrs || (k in Updatable(inst.cls, kw, honourExclude) && k in Keys(data.entries))))
            && (forall k :: (k !in FollowKeys(kw) || k !in Keys(data.entries)) && k in r.inst.attrs ==>
                  r.inst.attrs[k] == if k in Updatable(inst.cls, kw, honourExclude) && k in Keys(data.entries)
                                     then Get(data.entries, k).value else inst.attrs[k])
  {
    var c := inst.cls;
    FromDictSteps(inst, data, kw, honourExclude);
    AssignEffect(inst, Items(data.entries), ResolveAllowPk(c, kw), PrimaryKeyProperties(c), Updatable(c, kw, honourExclude));
    forall k ensures Get(Items(data.entries), k) == Get(data.entries, k) {
      ItemsGet(data.entries, k);
    }
    var simple := SimpleLoop(inst, data.entries, kw, honourExclude);
    var follow := NormalizeFollow(kw).value;
    forall k | k in simple.inst.attrs && (k !in FollowKeys(kw) || k !in Keys(data.entries))
      ensures FromDictWith(inst, data, kw, honourExclude).inst.attrs[k] == simple.inst.attrs[k]
    {
      FollowFromDictKeepsOthers(simple.inst, Depth(kw), follow, data.entries, honourExclude, k);
    }
  }

  /** The follow loop of `fromdict` (utils.py:197-206): the relations are
      handled in turn, and the first one that raises stops the loop. */
  function FollowFromDict(inst: Instance, ghost bound: nat, follow: Dict<Kwargs>, data: Dict<Value>, honourExclude: bool): (r: Applied)
    requires forall i :: 0 <= i < |follow| ==> Depth(follow[i].val) < bound
    decreases bound, 1, |follow|
    ensures r.inst.cls == inst.cls
    ensures r.inst.attrs.Keys == inst.attrs.Keys
  {
    if |follow| == 0 then Applied(inst, None)
    else
      var rest := follow[1..];
      assert forall i :: 1 <= i < |follow| ==> follow[i] == rest[i - 1];
      var step := FollowRelationFromDict(inst, bound, follow[0], data, honourExclude);
      if step.err.Some? then step
      else FollowFromDict(step.inst, bound, rest, data, honourExclude)
  }

  /** One followed relation `k` with its bundle: a key absent from `data`
      is skipped before anything else is checked; a present key must name a
      relationship; only a dictable value is updated, by its own
      `fromdict(data[k], **bundle)`, and written back; lists and every other
      value are left alone. */
  function FollowRelationFromDict(inst: Instance, ghost bound: nat, e: Entry<Kwargs>, data: Dict<Value>, honourExclude: bool): (r: Applied)
    requires Depth(e.val) < bound
    decreases bound, 0
    ensures r.inst.cls == inst.cls
    ensures r.inst.attrs.Keys == inst.attrs.Keys
    ensures e.key !in Keys(data) ==> r == Applied(inst, None)
    ensures e.key in Keys(data) && e.key !in RelationKeys(inst.cls) ==> r.err == Some(NotARelation(e.key))
  {
    var k := e.key;
    if k !in Keys(data) then Applied(inst, None)
    else if k !in RelationKeys(inst.cls) then Applied(inst, Some(NotARelation(k)))
    else if k !in inst.attrs then Applied(inst, Some(NoAttribute(k)))
    else
      var rel := inst.attrs[k];
      if IsDictable(rel) then
        var child := FromDictWith(rel.inst, Get(data, k).value, e.val, honourExclude);
        Applied(SetAttr(inst, k, Obj(child.inst)), child.err)
      else Applied(inst, None)
  }

  /** A relation step writes only its own key, and only when that key
      holds a dictable instance, which it replaces by a dictable instance. */
  lemma RelationStepFrame(inst: Instance, bound: nat, e: Entry<Kwargs>, data: Dict<Value>, honourExclude: bool, k: string)
    requires Depth(e.val) < bound
    requires k in inst.attrs
    ensures var r := FollowRelationFromDict(inst, bound, e, data, honourExclude);
            && (k != e.key || !IsDictable(inst.attrs[k]) ==> r.inst.attrs[k] == inst.attrs[k])
            && (IsDictable(inst.attrs[k]) ==> IsDictable(r.inst.attrs[k]))
  {
  }

  /** The follow loop leaves alone every attribute that is not followed,
      not in `data`, or not a dictable instance, and writes a followed
      dictable relation back as a dictable instance. */
  lemma {:induction false} FollowFromDictKeepsOthers(inst: Instance, bound: nat, follow: Dict<Kwargs>, data: Dict<Value>, honourExclude: bool, k: string)
    requires forall i :: 0 <= i < |follow| ==> Depth(follow[i].val) < bound
    requires k in inst.attrs
    ensures var r := FollowFromDict(inst, bound, follow, data, honourExclude);
            && (k !in Keys(follow) || k !in Keys(data) || !IsDictable(inst.attrs[k]) ==> r.inst.attrs[k] == inst.attrs[k])
            && (IsDictable(inst.attrs[k]) ==> IsDictable(r.inst.attrs[k]))
    decreases |follow|
  {
    if |follow| > 0 {
      var rest := follow[1..];
      assert forall i :: 1 <= i < |follow| ==> follow[i] == rest[i - 1];
      assert Keys(follow) == {follow[0].key} + Keys(rest) by {
        GetPrepend(follow[0], rest, follow[0].key);
        assert follow == [follow[0]] + rest;
      }
      var step := FollowRelationFromDict(inst, bound, follow[0], data, honourExclude);
      RelationStepFrame(inst, bound, follow[0], data, honourExclude, k);
      if step.err.None? {
        FollowFromDictKeepsOthers(step.inst, bound, rest, data, honourExclude, k);
      }
    }
  }

  /** A follow loop none of whose keys is in `data` does nothing. */
  lemma {:induction false} FollowFromDictAllAbsent(inst: Instance, bound: nat, follow: Dict<Kwargs>, data: Dict<Value>, honourExclude: bool)
    requires forall i :: 0 <= i < |follow| ==> Depth(follow[i].val) < bound
    requires forall i :: 0 <= i < |follow| ==> follow[i].key !in Keys(data)
    ensures FollowFromDict(inst, bound, follow, data, honourExclude) == Applied(inst, None)
    decreases |follow|
  {
    if |follow| > 0 {
      assert forall i :: 1 <= i < |follow| ==> follow[i] == follow[1..][i - 1];
      FollowFromDictAllAbsent(inst, bound, follow[1..], data, honourExclude);
    }
  }

  /** A follow key present in `data` that is not a relationship raises
      `ValueError` for that key (utils.py:200-203), unless a relation before
      it has already raised: the loop's outcome is that of the relations
      before it, whose children stay updated, with `NotARelation` added when
      they all completed. */
  lemma {:induction false} FollowFromDictNonRelation(inst: Instance, bound: nat, follow: Dict<Kwargs>, data: Dict<Value>, honourExclude: bool, i: int)
    requires forall i :: 0 <= i < |follow| ==> Depth(follow[i].val) < bound
    requires 0 <= i < |follow| && follow[i].key in Keys(data) && follow[i].key !in RelationKeys(inst.cls)
    ensures FollowFromDict(inst, bound, follow, data, honourExclude).err.Some?
    ensures FollowFromDict(inst, bound, follow, data, honourExclude) ==
              var p := FollowFromDict(inst, bound, follow[..i], data, honourExclude);
              if p.err.Some? then p else Applied(p.inst, Some(NotARelation(follow[i].key)))
    decreases i
  {
    var rest := follow[1..];
    assert forall j :: 1 <= j < |follow| ==> follow[j] == rest[j - 1];
    var step := FollowRelationFromDict(inst, bound, follow[0], data, honourExclude);
    if i == 0 {
      assert follow[..0] == [];
    } else {
      assert follow[..i][0] == follow[0];
      assert follow[..i][1..] == rest[..i - 1];
      if step.err.None? {
        FollowFromDictNonRelation(step.inst, bound, rest, data, honourExclude, i - 1);
      }
    }
  }

  /** Once the call's keywords and `data` are accepted, `fromdict` is its
      simple loop followed, if that completes, by its follow loop. */
  lemma FromDictSteps(inst: Instance, data: Value, kw: Kwargs, honourExclude: bool)
    requires kw.excludePk.Omitted? && NormalizeFollow(kw).Ok? && data.PlainDict?
    ensures FromDictWith(inst, data, kw, honourExclude)
            == var simple := SimpleLoop(inst, data.entries, kw, honourExclude);
               if simple.err.Some? then simple
               else FollowFromDict(simple.inst, Depth(kw), NormalizeFollow(kw).value, data.entries, honourExclude)
  {
  }

  /** A relation step reads the instance only at its own key. */
  lemma RelationStepSameKey(i1: Instance, i2: Instance, bound: nat, e: Entry<Kwargs>, data: Dict<Value>, honourExclude: bool)
    requires Depth(e.val) < bound
    requires RelationKeys(i1.cls) == RelationKeys(i2.cls)
    requires (e.key in i1.attrs <==> e.key in i2.attrs) && (e.key in i1.attrs ==> i1.attrs[e.key] == i2.attrs[e.key])
    ensures var s1 := FollowRelationFromDict(i1, bound, e, data, honourExclude);
            var s2 := FollowRelationFromDict(i2, bound, e, data, honourExclude);
            s1.err == s2.err && (e.key in i1.attrs ==> s1.inst.attrs[e.key] == s2.inst.attrs[e.key])
  {
  }

  /** A relation step on a dictable relation present in `data` is the
      child's own `fromdict(data[k], **bundle)`, written back. */
  lemma RelationStepChild(inst: Instance, bound: nat, e: Entry<Kwargs>, data: Dict<Value>, honourExclude: bool)
    requires Depth(e.val) < bound
    requires e.key in Keys(data) && e.key in RelationKeys(inst.cls)
    requires e.key in inst.attrs && IsDictable(inst.attrs[e.key])
    ensures var s := FollowRelationFromDict(inst, bound, e, data, honourExclude);
            var child := FromDictWith(inst.attrs[e.key].inst, Get(data, e.key).value, e.val, honourExclude);
            s.err == child.err && s.inst.attrs[e.key] == Obj(child.inst)
  {
  }

  /** Reading the follow loop's result under a followed key: what the
      relation step for that key makes of the instance it started from. */
  lemma {:induction false} FollowFromDictAt(inst: Instance, bound: nat, follow: Dict<Kwargs>, data: Dict<Value>, honourExclude: bool, i: int)
    requires forall i :: 0 <= i < |follow| ==> Depth(follow[i].val) < bound
    requires DistinctKeys(follow)
    requires FollowFromDict(inst, bound, follow, data, honourExclude).err.None?
    requires 0 <= i < |follow| && follow[i].key in inst.attrs
    ensures var s := FollowRelationFromDict(inst, bound, follow[i], data, honourExclude);
            && s.err.None?
            && FollowFromDict(inst, bound, follow, data, honourExclude).inst.attrs[follow[i].key] == s.inst.attrs[follow[i].key]
    decreases |follow|
  {
    var rest := follow[1..];
    assert forall j :: 1 <= j < |follow| ==> follow[j] == rest[j - 1];
    var step := FollowRelationFromDict(inst, bound, follow[0], data, honourExclude);
    var r := FollowFromDict(inst, bound, follow, data, honourExclude);
    assert step.err.None? && r == FollowFromDict(step.inst, bound, rest, data, honourExclude);
    var k := follow[i].key;
    if i == 0 {
      assert k !in Keys(rest) by {
        assert forall j :: 0 <= j < |rest| ==> rest[j].key != k;
      }
      FollowFromDictKeepsOthers(step.inst, bound, rest, data, honourExclude, k);
    } else {
      assert rest[i - 1] == follow[i] && k != follow[0].key;
      RelationStepFrame(inst, bound, follow[0], data, honourExclude, k);
      FollowFromDictAt(step.inst, bound, rest, data, honourExclude, i - 1);
      RelationStepSameKey(step.inst, inst, bound, follow[i], data, honourExclude);
      var s1 := FollowRelationFromDict(step.inst, bound, follow[i], data, honourExclude);
      var s := FollowRelationFromDict(inst, bound, follow[i], data, honourExclude);
      assert r.inst.attrs[k] == s1.inst.attrs[k] == s.inst.attrs[k];
    }
  }

  /** Only a singular dictable relation is followed (utils.py:204-206): when
      `fromdict` completes, such a relation present in `data` holds its
      instance updated by `fromdict(data[k], **bundle)`. */
  lemma FollowedRelationUpdated(inst: Instance, data: Value, kw: Kwargs, k: string)
    requires FromDict(inst, data, kw).err.None?
    requires k in FollowKeys(kw) && data.PlainDict? && k in Keys(data.entries)
    requires k in inst.attrs && IsDictable(inst.attrs[k])
    requires k !in FromdictCandidates(inst.cls, kw)
    ensures var child := FromDict(inst.attrs[k].inst, Get(data.entries, k).value, FollowBundle(kw, k));
            child.err.None? && FromDict(inst, data, kw).inst.attrs[k] == Obj(child.inst)
  {
    var c := inst.cls;
    var follow := NormalizeFollow(kw).value;
    var simple := SimpleLoop(inst, data.entries, kw, false);
    FromDictSteps(inst, data, kw, false);
    var i :| 0 <= i < |follow| && follow[i].key == k;
    GetDistinct(follow, i);
    assert k !in Updatable(c, kw, false);
    FollowFromDictAt(simple.inst, Depth(kw), follow, data.entries, false, i);
    RelationStepChild(simple.inst, Depth(kw), follow[i], data.entries, false);
  }

  /** Lists, and every other value that is not a dictable instance, are
      never traversed by the follow loop: an attribute `fromdict` does not
      assign keeps its value even when followed. */
  lemma ListsNotTraversed(inst: Instance, data: Value, kw: Kwargs, k: string)
    requires k in inst.attrs && !IsDictable(inst.attrs[k])
    requires k !in FromdictCandidates(inst.cls, kw)
    ensures FromDict(inst, data, kw).inst.attrs[k] == inst.attrs[k]
  {
    assert k !in Updatable(inst.cls, kw, false);
    if kw.excludePk.Omitted? && NormalizeFollow(kw).Ok? && data.PlainDict? {
      FromDictSteps(inst, data, kw, false);
      var simple := SimpleLoop(inst, data.entries, kw, false);
      if simple.err.None? {
        FollowFromDictKeepsOthers(simple.inst, Depth(kw), NormalizeFollow(kw).value, data.entries, false, k);
      }
    }
  }

  /** A follow key absent from `data` is skipped before the relationship
      check (utils.py:198-199): when no followed key is in `data`, the call
      is exactly its simple loop, so a non-relation follow key raises
      nothing. */
  lemma AbsentFollowKeysSkipped(inst: Instance, data: Value, kw: Kwargs)
    requires kw.excludePk.Omitted? && NormalizeFollow(kw).Ok? && data.PlainDict?
    requires forall k :: k in FollowKeys(kw) ==> k !in Keys(data.entries)
    ensures FromDict(inst, data, kw) == SimpleLoop(inst, data.entries, kw, false)
  {
    FromDictSteps(inst, data, kw, false);
    var simple := SimpleLoop(inst, data.entries, kw, false);
    var follow := NormalizeFollow(kw).value;
    if simple.err.None? {
      FollowFromDictAllAbsent(simple.inst, Depth(kw), follow, data.entries, false);
    }
  }

  /** A follow key present in `data` that is not a relationship raises
      `ValueError` for that key (utils.py:200-203), once the simple loop has
      completed: the call ends as the follow loop over the relations before
      it ends, with `NotARelation(k)` added when that loop completed. */
  lemma PresentNonRelationRaises(inst: Instance, data: Value, kw: Kwargs, k: string)
    requires kw.excludePk.Omitted? && NormalizeFollow(kw).Ok? && data.PlainDict?
    requires SimpleLoop(inst, data.entries, kw, false).err.None?
    requires k in FollowKeys(kw) && k in Keys(data.entries) && k !in RelationKeys(inst.cls)
    ensures FromDict(inst, data, kw).err.Some?
    ensures var follow := NormalizeFollow(kw).value;
            exists i :: 0 <= i < |follow| && follow[i].key == k
              && FromDict(inst, data, kw) ==
                   var p := FollowFromDict(SimpleLoop(inst, data.entries, kw, false).inst, Depth(kw), follow[..i], data.entries, false);
                   if p.err.Some? then p else Applied(p.inst, Some(NotARelation(k)))
  {
    FromDictSteps(inst, data, kw, false);
    var simple := SimpleLoop(inst, data.entries, kw, false);
    var follow := NormalizeFollow(kw).value;
    var i :| 0 <= i < |follow| && follow[i].key == k;
    FollowFromDictNonRelation(simple.inst, Depth(kw), follow, data.entries, false, i);
  }

  /** Where the simple loop stops at a primary-key key, the instance holds
      exactly the assignments of the pairs before it. */
  lemma AssignStopEffect(inst: Instance, items: Dict<Value>, pks: set<string>, upd: set<string>, j: int)
    requires DistinctKeys(items)
    requires 0 <= j < |items| && items[j].key in pks
    requires forall i :: 0 <= i < j ==> items[i].key !in pks
    ensures var r := Assign(inst, items, false, pks, upd);
            && r.err == Some(PrimaryKeyUpdate(items[j].key))
            && (forall k :: k in r.inst.attrs <==> k in inst.attrs || (k in upd && k in Keys(items[..j])))
            && (forall k :: k in r.inst.attrs ==>
                  if k in upd && k in Keys(items[..j]) then Get(items, k) == Some(r.inst.attrs[k])
                  else r.inst.attrs[k] == inst.attrs[k])
  {
    AssignStopsAtPrimaryKey(inst, items, pks, upd, j);
    var prefix := items[..j];
    AssignEffect(inst, prefix, false, pks, upd);
    forall k | k in Keys(prefix)
      ensures Get(prefix, k) == Get(items, k)
    {
      GetPrefixDistinct(items, j, k);
    }
  }

  /** The call stopped at the `j`-th pair of `items`, a primary-key key,
      holding exactly the assignments of the updatable keys before it. */
  ghost predicate StoppedAt(before: Instance, r: Applied, items: Dict<Value>, data: Dict<Value>, pks: set<string>, upd: set<string>, j: int)
  {
    && 0 <= j < |items| && items[j].key in pks
    && (forall i :: 0 <= i < j ==> items[i].key !in pks)
    && r.err == Some(PrimaryKeyUpdate(items[j].key))
    && (forall k :: k in r.inst.attrs <==> k in before.attrs || (k in upd && k in Keys(items[..j])))
    && (forall k :: k in r.inst.attrs ==>
          if k in upd && k in Keys(items[..j]) then Get(data, k) == Some(r.inst.attrs[k])
          else r.inst.attrs[k] == before.attrs[k])
  }

  /** A primary-key property in `data` without `allow_pk` raises
      (utils.py:189-192) at the first such pair, and the instance keeps
      exactly the assignments of the pairs processed before it: nothing is
      rolled back. */
  lemma PrimaryKeyProtected(inst: Instance, data: Value, kw: Kwargs)
    requires kw.excludePk.Omitted? && NormalizeFollow(kw).Ok? && data.PlainDict?
    requires !ResolveAllowPk(inst.cls, kw)
    requires exists k :: k in Keys(data.entries) && k in PrimaryKeyProperties(inst.cls)
    ensures exists j :: StoppedAt(inst, FromDict(inst, data, kw), Items(data.entries), data.entries,
                                  PrimaryKeyProperties(inst.cls), Updatable(inst.cls, kw, false), j)
  {
    var items := Items(data.entries);
    var pks := PrimaryKeyProperties(inst.cls);
    var upd := Updatable(inst.cls, kw, false);
    var k0 :| k0 in Keys(data.entries) && k0 in pks;
    assert k0 in Keys(items);
    var j := FirstIn(items, pks);
    AssignStopEffect(inst, items, pks, upd, j);
    var r := Assign(inst, items, false, pks, upd);
    assert r == SimpleLoop(inst, data.entries, kw, false);
    StoppedCallIsSimpleLoop(inst, data, kw);
    forall k | k in r.inst.attrs && k in upd && k in Keys(items[..j])
      ensures Get(data.entries, k) == Some(r.inst.attrs[k])
    {
      assert Get(items, k) == Some(r.inst.attrs[k]);
      ItemsGet(data.entries, k);
    }
    assert StoppedAt(inst, r, items, data.entries, pks, upd, j);
  }

  /** A simple loop that raises is the whole call's outcome. */
  lemma StoppedCallIsSimpleLoop(inst: Instance, data: Value, kw: Kwargs)
    requires kw.excludePk.Omitted? && NormalizeFollow(kw).Ok? && data.PlainDict?
    requires SimpleLoop(inst, data.entries, kw, false).err.Some?
    ensures FromDict(inst, data, kw) == SimpleLoop(inst, data.entries, kw, false)
  {
    FromDictSteps(inst, data, kw, false);
  }

  /** The position of the first entry whose key is in `ks`. */
  function FirstIn(items: Dict<Value>, ks: set<string>): (j: int)
    requires exists i :: 0 <= i < |items| && items[i].key in ks
    ensures 0 <= j < |items| && items[j].key in ks
    ensures forall i :: 0 <= i < j ==> items[i].key !in ks
  {
    if items[0].key in ks then 0
    else
      assert forall i :: 1 <= i < |items| ==> items[i] == items[1..][i - 1];
      1 + FirstIn(items[1..], ks)
  }

  /** With `allow_pk` resolved true and nothing followed, a primary-key
      property in `data` is assigned like any other column. */
  lemma AllowPkAssigns(inst: Instance, data: Value, kw: Kwargs, k: string)
    requires kw.excludePk.Omitted? && kw.follow.None? && data.PlainDict?
    requires ResolveAllowPk(inst.cls, kw)
    requires k in Keys(data.entries) && k in PrimaryKeyProperties(inst.cls) && k in ColumnKeys(inst.cls)
    ensures FromDict(inst, data, kw).err.None?
    ensures k in FromDict(inst, data, kw).inst.attrs
    ensures FromDict(inst, data, kw).inst.attrs[k] == Get(data.entries, k).value
  {
    FromDictSteps(inst, data, kw, false);
  }

  /** The exclude list `fromdict` computes (utils.py:163-173) changes
      nothing: neither the call's `exclude` nor `exclude_underscore` affects
      the outcome. */
  lemma ExcludeIgnored(inst: Instance, data: Value, kw: Kwargs, exclude: Option<seq<string>>, excludeUnderscore: Option<bool>)
    ensures FromDict(inst, data, kw.(exclude := exclude, excludeUnderscore := excludeUnderscore)) == FromDict(inst, data, kw)
  {
    var kw' := kw.(exclude := exclude, excludeUnderscore := excludeUnderscore);
    assert Depth(kw') == Depth(kw);
    assert NormalizeFollow(kw') == NormalizeFollow(kw);
    assert Updatable(inst.cls, kw', false) == Updatable(inst.cls, kw, false);
  }

  /** The simple loop reads only the instance's attributes. */
  lemma {:induction false} AssignSameAttrs(i1: Instance, i2: Instance, items: Dict<Value>, allowPk: bool, pks: set<string>, upd: set<string>)
    requires i1.attrs == i2.attrs
    ensures var r1 := Assign(i1, items, allowPk, pks, upd);
            var r2 := Assign(i2, items, allowPk, pks, upd);
            r1.err == r2.err && r1.inst.attrs == r2.inst.attrs
    decreases |items|
  {
    if |items| > 0 && (allowPk || items[0].key !in pks) {
      var e := items[0];
      var n1 := if e.key in upd then SetAttr(i1, e.key, e.val) else i1;
      var n2 := if e.key in upd then SetAttr(i2, e.key, e.val) else i2;
      AssignSameAttrs(n1, n2, items[1..], allowPk, pks, upd);
    }
  }

  /** The simple loop sees a class only through its candidate keys, its
      resolved `allow_pk` and its primary-key properties. */
  lemma SimpleLoopSameView(i1: Instance, i2: Instance, entries: Dict<Value>, kw: Kwargs)
    requires i1.attrs == i2.attrs
    requires FromdictCandidates(i1.cls, kw) == FromdictCandidates(i2.cls, kw)
    requires ResolveAllowPk(i1.cls, kw) == ResolveAllowPk(i2.cls, kw)
    requires PrimaryKeyProperties(i1.cls) == PrimaryKeyProperties(i2.cls)
    ensures SimpleLoop(i1, entries, kw, false).err == SimpleLoop(i2, entries, kw, false).err
    ensures SimpleLoop(i1, entries, kw, false).inst.attrs == SimpleLoop(i2, entries, kw, false).inst.attrs
  {
    assert Updatable(i1.cls, kw, false) == Updatable(i2.cls, kw, false);
    AssignSameAttrs(i1, i2, Items(entries), ResolveAllowPk(i1.cls, kw), PrimaryKeyProperties(i1.cls), Updatable(i1.cls, kw, false));
  }

  /** The follow loop sees a class only through its relationship keys. */
  lemma {:induction false} FollowFromDictSameView(i1: Instance, i2: Instance, bound: nat, follow: Dict<Kwargs>, data: Dict<Value>, honourExclude: bool)
    requires forall i :: 0 <= i < |follow| ==> Depth(follow[i].val) < bound
    requires i1.attrs == i2.attrs && RelationKeys(i1.cls) == RelationKeys(i2.cls)
    ensures var r1 := FollowFromDict(i1, bound, follow, data, honourExclude);
            var r2 := FollowFromDict(i2, bound, follow, data, honourExclude);
            r1.err == r2.err && r1.inst.attrs == r2.inst.attrs
    decreases |follow|
  {
    if |follow| > 0 {
      var rest := follow[1..];
      assert forall i :: 1 <= i < |follow| ==> follow[i] == rest[i - 1];
      var s1 := FollowRelationFromDict(i1, bound, follow[0], data, honourExclude);
      var s2 := FollowRelationFromDict(i2, bound, follow[0], data, honourExclude);
      assert s1.err == s2.err && s1.inst.attrs == s2.inst.attrs;
      if s1.err.None? {
        FollowFromDictSameView(s1.inst, s2.inst, bound, rest, data, honourExclude);
      }
    }
  }

  /** `fromdict` sees a class only through its candidate keys, its
      resolved `allow_pk`, its primary-key properties and its relationship
      keys: two classes that agree on these update the same attributes the
      same way. */
  lemma FromDictSameView(i1: Instance, i2: Instance, data: Value, kw: Kwargs)
    requires i1.attrs == i2.attrs && RelationKeys(i1.cls) == RelationKeys(i2.cls)
    requires FromdictCandidates(i1.cls, kw) == FromdictCandidates(i2.cls, kw)
    requires ResolveAllowPk(i1.cls, kw) == ResolveAllowPk(i2.cls, kw)
    requires PrimaryKeyProperties(i1.cls) == PrimaryKeyProperties(i2.cls)
    ensures FromDict(i1, data, kw).err == FromDict(i2, data, kw).err
    ensures FromDict(i1, data, kw).inst.attrs == FromDict(i2, data, kw).inst.attrs
  {
    if kw.excludePk.Omitted? && NormalizeFollow(kw).Ok? && data.PlainDict? {
      FromDictSteps(i1, data, kw, false);
      FromDictSteps(i2, data, kw, false);
      var s1 := SimpleLoop(i1, data.entries, kw, false);
      var s2 := SimpleLoop(i2, data.entries, kw, false);
      SimpleLoopSameView(i1, i2, data.entries, kw);
      if s1.err.None? {
        FollowFromDictSameView(s1.inst, s2.inst, Depth(kw), NormalizeFollow(kw).value, data.entries, false);
      }
    }
  }
}

=== FILE: dicts.dfy ===
/** Python dicts as sequences of entries. A later entry for a key overrides
    an earlier one, exactly as a later assignment or `dict.update` does, so
    any sequence of entries denotes a dict and no well-formedness condition
    is needed. */
module Dicts {
  import opened Results

  datatype Entry<V> = Entry(key: string, val: V)

  type Dict<V> = seq<Entry<V>>

  /** The keys bound in `d`. */
  function Keys<V>(d: Dict<V>): set<string>
  {
    set i | 0 <= i < |d| :: d[i].key
  }

  /** Every key occurs at most once. */
  predicate DistinctKeys<V>(d: Dict<V>)
  {
    forall i, j :: 0 <= i < j < |d| ==> d[i].key != d[j].key
  }

  /** `d[k]`: the value of the last entry written under `k`, if there is one. */
  function Get<V>(d: Dict<V>, k: string): (r: Option<V>)
    ensures r.Some? <==> k in Keys(d)
    ensures r.Some? ==> exists i :: 0 <= i < |d| && d[i].key == k && d[i].val == r.value
  {
    if |d| == 0 then None
    else
      var last := d[|d| - 1];
      var front := d[..|d| - 1];
      assert Keys(d) == Keys(front) + {last.key} by {
        assert forall i :: 0 <= i < |front| ==> front[i] == d[i];
      }
      if last.key == k then Some(last.val) else Get(front, k)
  }

  /** `d.update({k: v})`: appending an entry rebinds `k` and nothing else. */
  lemma GetAppend<V>(d: Dict<V>, e: Entry<V>, k: string)
    ensures Get(d + [e], k) == if e.key == k then Some(e.val) else Get(d, k)
    ensures Keys(d + [e]) == Keys(d) + {e.key}
  {
    assert (d + [e])[..|d|] == d;
  }

  /** Reading a dict whose first entry is `e`: a later entry for the same key wins. */
  lemma {:induction false} GetPrepend<V>(e: Entry<V>, d: Dict<V>, k: string)
    ensures Get([e] + d, k) == if k in Keys(d) then Get(d, k) else if e.key == k then Some(e.val) else None
    ensures Keys([e] + d) == {e.key} + Keys(d)
    decreases |d|
  {
    if |d| == 0 {
      assert [e] + d == [e];
    } else {
      var front := d[..|d| - 1];
      var last := d[|d| - 1];
      assert [e] + d == ([e] + front) + [last];
      GetAppend([e] + front, last, k);
      GetAppend(front, last, k);
      assert front + [last] == d;
      GetPrepend(e, front, k);
    }
  }

  /** The pairs a dict yields when iterated: one entry per key, the last
      one written under it. */
  function Items<V>(d: Dict<V>): (r: Dict<V>)
    ensures DistinctKeys(r)
    ensures Keys(r) == Keys(d)
    ensures forall i :: 0 <= i < |r| ==> r[i] in d
  {
    if |d| == 0 then []
    else
      var rest := Items(d[1..]);
      assert Keys(d) == {d[0].key} + Keys(d[1..]) by {
        GetPrepend(d[0], d[1..], d[0].key);
        assert d == [d[0]] + d[1..];
      }
      if d[0].key in Keys(d[1..]) then rest
      else
        var r := [d[0]] + rest;
        assert forall i :: 1 <= i < |r| ==> r[i] == rest[i - 1];
        assert Keys(r) == {d[0].key} + Keys(rest) by {
          GetPrepend(d[0], rest, d[0].key);
        }
        r
  }

  /** A key is yielded by iteration exactly when some entry binds it. */
  lemma ItemKeys<V>(d: Dict<V>)
    ensures forall k :: k in Keys(d) <==> exists i :: 0 <= i < |Items(d)| && Items(d)[i].key == k
  {
    var r := Items(d);
    forall k | k in Keys(d)
      ensures exists i :: 0 <= i < |r| && r[i].key == k
    {
      assert k in Keys(r);
    }
  }

  /** Iterating a dict loses no binding and invents none. */
  lemma {:induction false} ItemsGet<V>(d: Dict<V>, k: string)
    ensures Get(Items(d), k) == Get(d, k)
    decreases |d|
  {
    if |d| > 0 {
      ItemsGet(d[1..], k);
      assert d == [d[0]] + d[1..];
      GetPrepend(d[0], d[1..], k);
      if d[0].key !in Keys(d[1..]) {
        GetPrepend(d[0], Items(d[1..]), k);
      }
    }
  }

  /** In a dict with distinct keys each entry is the binding of its key. */
  lemma {:induction false} GetDistinct<V>(d: Dict<V>, i: int)
    requires DistinctKeys(d)
    requires 0 <= i < |d|
    ensures Get(d, d[i].key) == Some(d[i].val)
    decreases |d|
  {
    if i < |d| - 1 {
      var front := d[..|d| - 1];
      assert front[i] == d[i];
      GetDistinct(front, i);
      GetAppend(front, d[|d| - 1], d[i].key);
      assert front + [d[|d| - 1]] == d;
    } else {
      GetAppend(d[..|d| - 1], d[|d| - 1], d[i].key);
      assert d[..|d| - 1] + [d[|d| - 1]] == d;
    }
  }

  /** A prefix of a dict with distinct keys binds its keys as the whole does. */
  lemma GetPrefixDistinct<V>(d: Dict<V>, j: int, k: string)
    requires DistinctKeys(d)
    requires 0 <= j <= |d|
    requires k in Keys(d[..j])
    ensures Get(d[..j], k) == Get(d, k)
  {
    var i :| 0 <= i < j && d[..j][i].key == k;
    GetDistinct(d[..j], i);
    GetDistinct(d, i);
  }

  /** Every pair iteration yields is the dict's binding for that key. */
  lemma ItemsArePairs<V>(d: Dict<V>, i: int)
    requires 0 <= i < |Items(d)|
    ensures Get(d, Items(d)[i].key) == Some(Items(d)[i].val)
  {
    GetDistinct(Items(d), i);
    ItemsGet(d, Items(d)[i].key);
  }

  /** `dict.fromkeys(names, v)`: every name bound to the same value `v`. */
  function FromKeys<V>(names: seq<string>, v: V): (r: Dict<V>)
    ensures DistinctKeys(r)
    ensures forall k :: k in Keys(r) <==> k in names
    ensures forall i :: 0 <= i < |r| ==> r[i].val == v
  {
    var pairs := seq(|names|, i requires 0 <= i < |names| => Entry(names[i], v));
    assert forall k :: k in names ==> k in Keys(pairs) by {
      forall k | k in names ensures k in Keys(pairs) {
        var i :| 0 <= i < |names| && names[i] == k;
        assert pairs[i].key == k;
      }
    }
    Items(pairs)
  }
}

=== FILE: fixtures.dfy ===
/** Concrete mapped classes shaped like those of dictalchemy/tests/__init__.py,
    and what `asdict` and `fromdict` do on them. */
module Fixtures {
  import opened Results
  import opened Dicts
  import opened Metadata
  import opened Config
  import opened Serializer
  import opened Deserializer

  function Col(name: string, pk: bool): Kind
  {
    ColumnProperty([TableColumn(name, pk)])
  }

  /** `Named`: an `id` primary key and a `name` column. */
  const Named := MappedClass("Named",
    [Descriptor("id", Col("id", true)), Descriptor("name", Col("name", false))],
    Unconfigured, true)

  /** `NamedWithOtherPk`: the property `id` over the column `other_id`. */
  const NamedWithOtherPk := MappedClass("NamedWithOtherPk",
    [Descriptor("id", Col("other_id", true)), Descriptor("name", Col("name", false))],
    Unconfigured, true)

  /** `NamedWithSynonym`: a `_name` column behind the synonym `name`. */
  const NamedWithSynonym := MappedClass("NamedWithSynonym",
    [Descriptor("id", Col("id", true)), Descriptor("_name", Col("_name", false)), Descriptor("name", SynonymProperty)],
    Unconfigured, true)

  /** `OneToManyParent`: a singular relationship `child` over `_child_id`. */
  const Parent := MappedClass("OneToManyParent",
    [Descriptor("id", Col("id", true)), Descriptor("name", Col("name", false)),
     Descriptor("_child_id", Col("_child_id", false)), Descriptor("child", RelationshipProperty)],
    Unconfigured, true)

  /** `M2mLeft`: a list relationship `rights`. */
  const M2mLeft := MappedClass("M2mLeft",
    [Descriptor("id", Col("id", true)), Descriptor("name", Col("name", false)), Descriptor("rights", RelationshipProperty)],
    Unconfigured, true)

  /** A `Named` instance; `OneToManyChild` and `M2mRight` have the same
      shape and stand in as the children below. */
  function NamedInstance(id: int, name: string): Instance
  {
    Instance(Named, map["id" := Int(id), "name" := Str(name)])
  }

  function SynonymInstance(name: string): Instance
  {
    Instance(NamedWithSynonym, map["id" := Int(1), "_name" := Str(name), "name" := Str(name)])
  }

  function ParentInstance(child: Value): Instance
  {
    Instance(Parent, map["id" := Int(1), "name" := Str("p"), "_child_id" := Int(2), "child" := child])
  }

  function LeftInstance(rights: seq<Value>): Instance
  {
    Instance(M2mLeft, map["id" := Int(1), "name" := Str("l"), "rights" := InstrumentedList(rights)])
  }

  /** `follow=['child']`. */
  const FollowChild := NoKwargs.(follow := Some(FollowNames(["child"])))

  lemma NamedShape()
    ensures ColumnKeys(Named) == ["id", "name"]
    ensures SynonymKeys(Named) == [] && RelationKeys(Named) == []
    ensures PrimaryKeyProperties(Named) == {"id"}
    ensures UnderscoreKeys(Named) == {}
  {
    var ps := Named.props;
    assert ps[1..] == [ps[1]];
    assert ps[1..][1..] == [];
    assert ps[0].kind.columns[0].primaryKey;
  }

  lemma SynonymShape()
    ensures ColumnKeys(NamedWithSynonym) == ["id", "_name"]
    ensures SynonymKeys(NamedWithSynonym) == ["name"]
    ensures RelationKeys(NamedWithSynonym) == []
    ensures PrimaryKeyProperties(NamedWithSynonym) == {"id"}
    ensures UnderscoreKeys(NamedWithSynonym) == {"_name"}
  {
    var ps := NamedWithSynonym.props;
    assert ps[1..] == [ps[1], ps[2]];
    assert ps[1..][1..] == [ps[2]];
    assert ps[1..][1..][1..] == [];
    assert ps[0].kind.columns[0].primaryKey;
    assert !AnyPrimaryKey(ps[1].kind.columns);
  }

  lemma ParentShape()
    ensures ColumnKeys(Parent) == ["id", "name", "_child_id"]
    ensures SynonymKeys(Parent) == []
    ensures RelationKeys(Parent) == ["child"]
    ensures PrimaryKeyProperties(Parent) == {"id"}
    ensures UnderscoreKeys(Parent) == {"_child_id"}
  {
    var ps := Parent.props;
    assert ps[1..] == [ps[1], ps[2], ps[3]];
    assert ps[1..][1..] == [ps[2], ps[3]];
    assert ps[1..][1..][1..] == [ps[3]];
    assert ps[1..][1..][1..][1..] == [];
    assert ps[0].kind.columns[0].primaryKey;
    assert !AnyPrimaryKey(ps[1].kind.columns);
    assert !AnyPrimaryKey(ps[2].kind.columns);
  }

  lemma LeftShape()
    ensures ColumnKeys(M2mLeft) == ["id", "name"]
    ensures SynonymKeys(M2mLeft) == [] && RelationKeys(M2mLeft) == ["rights"]
    ensures UnderscoreKeys(M2mLeft) == {}
  {
    var ps := M2mLeft.props;
    assert ps[1..] == [ps[1], ps[2]];
    assert ps[1..][1..] == [ps[2]];
    assert ps[1..][1..][1..] == [];
  }

  /** The primary-key properties are named by property key, not by column
      name. */
  lemma PrimaryKeysByPropertyKey()
    ensures PrimaryKeyProperties(NamedWithOtherPk) == {"id"}
    ensures "other_id" !in PrimaryKeyProperties(NamedWithOtherPk)
  {
    var ps := NamedWithOtherPk.props;
    assert ps[1..] == [ps[1]];
    assert ps[1..][1..] == [];
    assert ps[0].kind.columns[0].primaryKey;
  }

  /** The base dict grows by one key at a time, in key order. */
  lemma BaseDictSnoc(inst: Instance, keys: seq<string>, k: string, exclude: set<string>)
    ensures BaseDict(inst, keys + [k], exclude)
            == match BaseDict(inst, keys, exclude)
               case Err(e) => Err(e)
               case Ok(r) =>
                 if k in exclude then Ok(r)
                 else if k in inst.attrs then Ok(r + [Entry(k, inst.attrs[k])])
                 else Err(NoAttribute(k))
  {
    assert (keys + [k])[..|keys|] == keys;
  }

  /** A base dict of one key, then of two. */
  lemma BaseDictOne(inst: Instance, k: string, ex: set<string>)
    ensures BaseDict(inst, [k], ex)
            == if k in ex then Ok([]) else if k in inst.attrs then Ok([Entry(k, inst.attrs[k])]) else Err(NoAttribute(k))
  {
    assert BaseDict(inst, [], ex) == Ok([]);
    BaseDictSnoc(inst, [], k, ex);
    assert [] + [k] == [k];
    if k !in ex && k in inst.attrs {
      assert [] + [Entry(k, inst.attrs[k])] == [Entry(k, inst.attrs[k])];
    }
  }

  lemma BaseDictKeep(inst: Instance, keys: seq<string>, k: string, ex: set<string>, r: Dict<Value>)
    requires BaseDict(inst, keys, ex) == Ok(r)
    requires k !in ex && k in inst.attrs
    ensures BaseDict(inst, keys + [k], ex) == Ok(r + [Entry(k, inst.attrs[k])])
  {
    BaseDictSnoc(inst, keys, k, ex);
  }

  lemma BaseDictSkip(inst: Instance, keys: seq<string>, k: string, ex: set<string>, r: Dict<Value>)
    requires BaseDict(inst, keys, ex) == Ok(r)
    requires k in ex
    ensures BaseDict(inst, keys + [k], ex) == Ok(r)
  {
    BaseDictSnoc(inst, keys, k, ex);
  }

  lemma ItemsSingle<V>(e: Entry<V>)
    ensures Items([e]) == [e]
  {
    assert [e][1..] == [];
  }

  /** Without `follow`, `asdict` is its base dict. */
  lemma UnfollowedAsDict(inst: Instance, kw: Kwargs)
    requires kw.allowPk.Omitted? && kw.follow.None?
    ensures AsDict(inst, kw) == BaseDict(inst, AsdictCandidates(inst.cls, kw), AsdictExclude(inst.cls, kw))
  {
    assert NormalizeFollow(kw) == Ok([]);
  }

  /** Without `follow`, `fromdict` on a dict is its simple loop. */
  lemma UnfollowedFromDict(inst: Instance, entries: Dict<Value>, kw: Kwargs, honourExclude: bool)
    requires kw.excludePk.Omitted? && kw.follow.None?
    ensures FromDictWith(inst, PlainDict(entries), kw, honourExclude) == SimpleLoop(inst, entries, kw, honourExclude)
  {
    assert NormalizeFollow(kw) == Ok([]);
    FromDictSteps(inst, PlainDict(entries), kw, honourExclude);
  }

  /** The simple loop over a single pair. */
  lemma AssignOne(inst: Instance, e: Entry<Value>, allowPk: bool, pks: set<string>, upd: set<string>)
    ensures Assign(inst, [e], allowPk, pks, upd)
            == if !allowPk && e.key in pks then Applied(inst, Some(PrimaryKeyUpdate(e.key)))
               else Applied(if e.key in upd then SetAttr(inst, e.key, e.val) else inst, None)
  {
    assert [e][1..] == [];
  }

  /** `exclude_pk=True` drops the primary key. */
  lemma NamedAsDictExcludePk()
    ensures AsDict(NamedInstance(1, "a"), NoKwargs.(excludePk := Given(Some(true)))) == Ok([Entry("name", Str("a"))])
  {
    NamedShape();
    var inst := NamedInstance(1, "a");
    var kw := NoKwargs.(excludePk := Given(Some(true)));
    assert AsdictCandidates(Named, kw) == ["id", "name"];
    assert AsdictExclude(Named, kw) == {"id"};
    UnfollowedAsDict(inst, kw);
    BaseDictOne(inst, "id", {"id"});
    BaseDictKeep(inst, ["id"], "name", {"id"}, []);
    assert ["id"] + ["name"] == ["id", "name"];
    assert [] + [Entry("name", Value.Str("a"))] == [Entry("name", Str("a"))];
  }

  /** The synonym's base dict: the underscore column is excluded. */
  lemma SynonymBaseDict()
    ensures BaseDict(SynonymInstance("a"), ["id", "_name", "name"], {"_name"})
            == Ok([Entry("id", Int(1)), Entry("name", Str("a"))])
  {
    var inst := SynonymInstance("a");
    var e1: Dict<Value> := [Entry("id", Int(1))];
    BaseDictOne(inst, "id", {"_name"});
    BaseDictSkip(inst, ["id"], "_name", {"_name"}, e1);
    assert ["id"] + ["_name"] == ["id", "_name"];
    BaseDictKeep(inst, ["id", "_name"], "name", {"_name"}, e1);
    assert ["id", "_name"] + ["name"] == ["id", "_name", "name"];
    assert e1 + [Entry("name", Value.Str("a"))] == [Entry("id", Int(1)), Entry("name", Str("a"))];
  }

  /** The synonym is serialised and the underscore column behind it is not. */
  lemma SynonymHidesUnderscoreColumn()
    ensures AsDict(SynonymInstance("a"), NoKwargs) == Ok([Entry("id", Int(1)), Entry("name", Str("a"))])
  {
    SynonymShape();
    assert AsdictCandidates(NamedWithSynonym, NoKwargs) == ["id", "_name", "name"];
    assert AsdictExclude(NamedWithSynonym, NoKwargs) == {"_name"};
    UnfollowedAsDict(SynonymInstance("a"), NoKwargs);
    SynonymBaseDict();
  }

  /** Following a column raises. */
  lemma FollowingAColumnRaises()
    ensures AsDict(NamedInstance(1, "a"), NoKwargs.(follow := Some(FollowNames(["name"])))) == Err(NotARelation("name"))
  {
    NamedShape();
    var inst := NamedInstance(1, "a");
    var kw := NoKwargs.(follow := Some(FollowNames(["name"])));
    FollowOneName("name");
    assert AsdictCandidates(Named, kw) == ["id", "name"];
    assert AsdictExclude(Named, kw) == {};
    FollowedAsDictSteps(inst, kw);
    NamedBaseDict(1, "a");
    var base := [Entry("id", Value.Int(1)), Entry("name", Value.Str("a"))];
    assert FollowRelationAsDict(inst, 1, Entry("name", NoKwargs), base) == Err(NotARelation("name"));
  }

  /** `fromdict` updates a column. */
  lemma NamedFromDictColumn(id: int, before: string, after: string)
    ensures FromDict(NamedInstance(id, before), PlainDict([Entry("name", Str(after))]), NoKwargs)
            == Applied(NamedInstance(id, after), None)
  {
    NamedShape();
    var inst := NamedInstance(id, before);
    var e := Entry("name", Value.Str(after));
    ItemsSingle(e);
    assert "name" in Updatable(Named, NoKwargs, false);
    AssignOne(inst, e, false, {"id"}, Updatable(Named, NoKwargs, false));
    UnfollowedFromDict(inst, [e], NoKwargs, false);
    NamedUpdate(id, id, before, after);
  }

  /** Writing the attributes of a `Named` instance. */
  lemma NamedUpdate(id: int, id': int, name: string, name': string)
    ensures SetAttr(NamedInstance(id, name), "name", Str(name')) == NamedInstance(id, name')
    ensures SetAttr(NamedInstance(id, name), "id", Int(id')) == NamedInstance(id', name)
  {
    NamedRename(id, name, name');
    NamedRenumber(id, id', name);
  }

  lemma NamedRename(id: int, name: string, name': string)
    ensures SetAttr(NamedInstance(id, name), "name", Str(name')) == NamedInstance(id, name')
  {
    var m := SetAttr(NamedInstance(id, name), "name", Str(name')).attrs;
    assert m.Keys == NamedInstance(id, name').attrs.Keys;
  }

  lemma NamedRenumber(id: int, id': int, name: string)
    ensures SetAttr(NamedInstance(id, name), "id", Int(id')) == NamedInstance(id', name)
  {
    var m := SetAttr(NamedInstance(id, name), "id", Int(id')).attrs;
    assert m.Keys == NamedInstance(id', name).attrs.Keys;
  }

  /** `fromdict` refuses a primary key without `allow_pk`. */
  lemma NamedFromDictPrimaryKeyRefused()
    ensures FromDict(NamedInstance(1, "a"), PlainDict([Entry("id", Int(2))]), NoKwargs)
            == Applied(NamedInstance(1, "a"), Some(PrimaryKeyUpdate("id")))
  {
    NamedShape();
    var inst := NamedInstance(1, "a");
    var e := Entry("id", Value.Int(2));
    ItemsSingle(e);
    AssignOne(inst, e, false, {"id"}, Updatable(Named, NoKwargs, false));
    UnfollowedFromDict(inst, [e], NoKwargs, false);
  }

  lemma ItemsPair<V>(e1: Entry<V>, e2: Entry<V>)
    requires e1.key != e2.key
    ensures Items([e1, e2]) == [e1, e2]
  {
    assert [e1, e2][1..] == [e2];
    ItemsSingle(e2);
    assert e1.key !in Keys([e2]);
    assert [e1] + [e2] == [e1, e2];
  }

  /** With the default keywords on both sides, the round trip does not
      close: `asdict` keeps the primary key and `fromdict` refuses it, before
      assigning anything. */
  lemma NamedRoundTripRefused(id: int, name: string)
    ensures AsDict(NamedInstance(id, name), NoKwargs).Ok?
    ensures FromDict(NamedInstance(id, name), PlainDict(AsDict(NamedInstance(id, name), NoKwargs).value), NoKwargs)
            == Applied(NamedInstance(id, name), Some(PrimaryKeyUpdate("id")))
  {
    NamedShape();
    NamedAsDictAt(id, name);
    var inst := NamedInstance(id, name);
    var d: Dict<Value> := [Entry("id", Int(id)), Entry("name", Str(name))];
    ItemsPair(d[0], d[1]);
    var upd := Updatable(Named, NoKwargs, false);
    AssignStopsAtPrimaryKey(inst, d, {"id"}, upd, 0);
    assert d[..0] == [];
    UnfollowedFromDict(inst, d, NoKwargs, false);
  }

  /** `fromdict` assigns a primary key with `allow_pk=True`. */
  lemma NamedFromDictPrimaryKeyAllowed()
    ensures FromDict(NamedInstance(1, "a"), PlainDict([Entry("id", Int(2))]), NoKwargs.(allowPk := Given(Some(true))))
            == Applied(NamedInstance(2, "a"), None)
  {
    NamedShape();
    var inst := NamedInstance(1, "a");
    var e := Entry("id", Value.Int(2));
    var allow := NoKwargs.(allowPk := Given(Some(true)));
    ItemsSingle(e);
    assert "id" in Updatable(Named, allow, false);
    AssignOne(inst, e, true, {"id"}, Updatable(Named, allow, false));
    UnfollowedFromDict(inst, [e], allow, false);
    NamedUpdate(1, 2, "a", "a");
  }

  /** As written, `fromdict` assigns an underscore column that is on its own
      exclude list; honouring the list leaves the column alone. */
  lemma ExcludedUnderscoreColumnAssigned()
    ensures var data := PlainDict([Entry("_name", Str("x"))]);
            && "_name" in FromdictExclude(NamedWithSynonym, NoKwargs)
            && FromDict(SynonymInstance("a"), data, NoKwargs)
               == Applied(SynonymInstance("a").(attrs := SynonymInstance("a").attrs["_name" := Str("x")]), None)
            && FromDictHonouringExclude(SynonymInstance("a"), data, NoKwargs) == Applied(SynonymInstance("a"), None)
  {
    var inst := SynonymInstance("a");
    var e := Entry("_name", Value.Str("x"));
    SynonymShape();
    ItemsSingle(e);
    var asWritten := Updatable(NamedWithSynonym, NoKwargs, false);
    var honoured := Updatable(NamedWithSynonym, NoKwargs, true);
    assert "_name" in FromdictCandidates(NamedWithSynonym, NoKwargs);
    assert "_name" in asWritten && "_name" !in honoured;
    AssignOne(inst, e, false, {"id"}, asWritten);
    AssignOne(inst, e, false, {"id"}, honoured);
    UnfollowedFromDict(inst, [e], NoKwargs, false);
    UnfollowedFromDict(inst, [e], NoKwargs, true);
  }

  lemma ParentAsdictKeys()
    ensures AsdictCandidates(Parent, FollowChild) == ["id", "name", "_child_id"]
    ensures AsdictExclude(Parent, FollowChild) == {"_child_id"}
  {
    ParentShape();
    assert ["id", "name", "_child_id"] + [] + [] + [] == ["id", "name", "_child_id"];
    assert Elems([]) == {};
  }

  /** The parent's base dict: its columns without the underscore one. */
  lemma ParentBaseDict(child: Value)
    ensures BaseDict(ParentInstance(child), ["id", "name", "_child_id"], {"_child_id"})
            == Ok([Entry("id", Int(1)), Entry("name", Str("p"))])
  {
    var inst := ParentInstance(child);
    var e1: Dict<Value> := [Entry("id", Int(1))];
    var e2: Dict<Value> := [Entry("id", Int(1)), Entry("name", Str("p"))];
    BaseDictOne(inst, "id", {"_child_id"});
    BaseDictKeep(inst, ["id"], "name", {"_child_id"}, e1);
    assert ["id"] + ["name"] == ["id", "name"];
    assert e1 + [Entry("name", Value.Str("p"))] == e2;
    BaseDictSkip(inst, ["id", "name"], "_child_id", {"_child_id"}, e2);
    assert ["id", "name"] + ["_child_id"] == ["id", "name", "_child_id"];
  }

  /** `follow=[k]` normalises to the one key with no keywords. */
  lemma FollowOneName(k: string)
    ensures NormalizeFollow(NoKwargs.(follow := Some(FollowNames([k])))) == Ok([Entry(k, NoKwargs)])
    ensures Depth(NoKwargs.(follow := Some(FollowNames([k])))) == 1
  {
    var f := [Entry(k, NoKwargs)];
    ItemsSingle(Entry(k, NoKwargs));
    assert seq(1, i requires 0 <= i < 1 => Entry([k][i], NoKwargs)) == f;
  }

  lemma FollowChildNormalized()
    ensures NormalizeFollow(FollowChild) == Ok([Entry("child", NoKwargs)])
    ensures Depth(FollowChild) == 1
  {
    FollowOneName("child");
  }

  /** With a well-formed `follow`, `asdict` is its base dict run through
      the follow loop. */
  lemma FollowedAsDictSteps(inst: Instance, kw: Kwargs)
    requires kw.allowPk.Omitted? && NormalizeFollow(kw).Ok?
    ensures AsDict(inst, kw)
            == match BaseDict(inst, AsdictCandidates(inst.cls, kw), AsdictExclude(inst.cls, kw))
               case Err(e) => Err(e)
               case Ok(base) => FollowAsDict(inst, Depth(kw), NormalizeFollow(kw).value, base)
  {
  }

  /** The parent with `follow=['child']`: its base dict, then the one
      followed relation. */
  lemma ParentFollowSteps(child: Value)
    ensures AsDict(ParentInstance(child), FollowChild)
            == FollowAsDict(ParentInstance(child), 1, [Entry("child", NoKwargs)], [Entry("id", Int(1)), Entry("name", Str("p"))])
  {
    ParentAsdictKeys();
    ParentBaseDict(child);
    FollowChildNormalized();
    FollowedAsDictSteps(ParentInstance(child), FollowChild);
  }

  /** One followed relation, converted or not. */
  lemma FollowOne(inst: Instance, k: string, acc: Dict<Value>)
    requires k in RelationKeys(inst.cls) && k in inst.attrs
    requires FollowedValue(inst.attrs[k], NoKwargs).Ok?
    ensures FollowAsDict(inst, 1, [Entry(k, NoKwargs)], acc)
            == match FollowedValue(inst.attrs[k], NoKwargs).value
               case Some(v) => Ok(acc + [Entry(k, v)])
               case None => Ok(acc)
  {
    assert [Entry(k, NoKwargs)][1..] == [];
  }

  /** Following a singular relation nests the child's own dict. */
  lemma FollowedChildNests()
    ensures AsDict(ParentInstance(Obj(NamedInstance(2, "c"))), FollowChild)
            == Ok([Entry("id", Int(1)), Entry("name", Str("p")),
                   Entry("child", PlainDict([Entry("id", Int(2)), Entry("name", Str("c"))]))])
  {
    var inst := ParentInstance(Obj(NamedInstance(2, "c")));
    var base: Dict<Value> := [Entry("id", Int(1)), Entry("name", Str("p"))];
    var childDict: Dict<Value> := [Entry("id", Int(2)), Entry("name", Str("c"))];
    ParentFollowSteps(Obj(NamedInstance(2, "c")));
    ParentShape();
    NamedFollowed(2, "c");
    FollowOne(inst, "child", base);
    Snoc3(base[0], base[1], Entry("child", PlainDict(childDict)));
  }

  /** A `Named` instance followed with no keywords becomes its default dict. */
  lemma NamedFollowed(id: int, name: string)
    ensures FollowedValue(Obj(NamedInstance(id, name)), NoKwargs)
            == Ok(Some(PlainDict([Entry("id", Int(id)), Entry("name", Str(name))])))
  {
    NamedAsDictAt(id, name);
  }

  lemma Snoc3<T>(a: T, b: T, c: T)
    ensures [a, b] + [c] == [a, b, c]
  {
  }

  /** A list of one child converts as that child does. */
  lemma ChildrenOne(x: Value, b: Kwargs)
    ensures ChildrenAsDict([x], b) == match ChildAsDict(x, b) case Ok(c) => Ok([c]) case Err(e) => Err(e)
  {
    assert [x][1..] == [];
    assert ChildrenAsDict([], b) == Ok([]);
    if ChildAsDict(x, b).Ok? {
      assert [ChildAsDict(x, b).value] + [] == [ChildAsDict(x, b).value];
    }
  }

  /** A followed list of `Named` children becomes the list of their dicts. */
  lemma NamedListFollowed(id: int, name: string)
    ensures FollowedValue(InstrumentedList([Obj(NamedInstance(id, name))]), NoKwargs)
            == Ok(Some(PlainList([PlainDict([Entry("id", Int(id)), Entry("name", Str(name))])])))
  {
    NamedAsDictAt(id, name);
    ChildrenOne(Obj(NamedInstance(id, name)), NoKwargs);
  }

  lemma LeftAsdictKeys()
    ensures AsdictCandidates(M2mLeft, NoKwargs.(follow := Some(FollowNames(["rights"])))) == ["id", "name"]
    ensures AsdictExclude(M2mLeft, NoKwargs.(follow := Some(FollowNames(["rights"])))) == {}
  {
    LeftShape();
    assert ["id", "name"] + [] + [] + [] == ["id", "name"];
    assert Elems([]) == {};
  }

  lemma LeftBaseDict(rights: seq<Value>)
    ensures BaseDict(LeftInstance(rights), ["id", "name"], {}) == Ok([Entry("id", Int(1)), Entry("name", Str("l"))])
  {
    var inst := LeftInstance(rights);
    BaseDictOne(inst, "id", {});
    BaseDictKeep(inst, ["id"], "name", {}, [Entry("id", Int(1))]);
    assert ["id"] + ["name"] == ["id", "name"];
    assert [Entry("id", Value.Int(1))] + [Entry("name", Value.Str("l"))] == [Entry("id", Int(1)), Entry("name", Str("l"))];
  }

  lemma LeftFollowSteps(rights: seq<Value>)
    ensures AsDict(LeftInstance(rights), NoKwargs.(follow := Some(FollowNames(["rights"]))))
            == FollowAsDict(LeftInstance(rights), 1, [Entry("rights", NoKwargs)], [Entry("id", Int(1)), Entry("name", Str("l"))])
  {
    FollowOneName("rights");
    LeftAsdictKeys();
    LeftBaseDict(rights);
    FollowedAsDictSteps(LeftInstance(rights), NoKwargs.(follow := Some(FollowNames(["rights"]))));
  }

  /** Following a list relation nests the list of its children's dicts,
      in order. */
  lemma FollowedListNests()
    ensures AsDict(LeftInstance([Obj(NamedInstance(3, "r"))]), NoKwargs.(follow := Some(FollowNames(["rights"]))))
            == Ok([Entry("id", Int(1)), Entry("name", Str("l")),
                   Entry("rights", PlainList([PlainDict([Entry("id", Int(3)), Entry("name", Str("r"))])]))])
  {
    var inst := LeftInstance([Obj(NamedInstance(3, "r"))]);
    var base: Dict<Value> := [Entry("id", Int(1)), Entry("name", Str("l"))];
    var converted := PlainList([PlainDict([Entry("id", Int(3)), Entry("name", Str("r"))])]);
    LeftFollowSteps([Obj(NamedInstance(3, "r"))]);
    LeftShape();
    NamedListFollowed(3, "r");
    FollowOne(inst, "rights", base);
    Snoc3(base[0], base[1], Entry("rights", converted));
  }

  /** An empty optional relation is followed and contributes nothing. */
  lemma MissingChildContributesNothing()
    ensures AsDict(ParentInstance(Null), FollowChild) == Ok([Entry("id", Int(1)), Entry("name", Str("p"))])
  {
    ParentFollowSteps(Null);
    ParentShape();
    assert FollowedValue(Null, NoKwargs) == Ok(None);
    FollowOne(ParentInstance(Null), "child", [Entry("id", Int(1)), Entry("name", Str("p"))]);
  }

  /** A default `asdict()` holds the columns in mapper order. */
  lemma NamedAsDictAt(id: int, name: string)
    ensures AsDict(NamedInstance(id, name), NoKwargs) == Ok([Entry("id", Int(id)), Entry("name", Str(name))])
  {
    NamedShape();
    var inst := NamedInstance(id, name);
    assert AsdictCandidates(Named, NoKwargs) == ["id", "name"];
    assert AsdictExclude(Named, NoKwargs) == {};
    UnfollowedAsDict(inst, NoKwargs);
    NamedBaseDict(id, name);
  }

  lemma NamedBaseDict(id: int, name: string)
    ensures BaseDict(NamedInstance(id, name), ["id", "name"], {}) == Ok([Entry("id", Int(id)), Entry("name", Str(name))])
  {
    var inst := NamedInstance(id, name);
    BaseDictOne(inst, "id", {});
    BaseDictKeep(inst, ["id"], "name", {}, [Entry("id", Int(id))]);
    assert ["id"] + ["name"] == ["id", "name"];
    assert [Entry("id", Value.Int(id))] + [Entry("name", Value.Str(name))] == [Entry("id", Int(id)), Entry("name", Str(name))];
  }

  /** The parent's simple loop ignores the relation key. */
  lemma ParentSimpleLoop(child: Value, e: Entry<Value>)
    requires e.key == "child"
    ensures SimpleLoop(ParentInstance(child), [e], FollowChild, false) == Applied(ParentInstance(child), None)
  {
    var inst := ParentInstance(child);
    ParentShape();
    ItemsSingle(e);
    var upd := Updatable(Parent, FollowChild, false);
    assert "child" !in upd;
    AssignOne(inst, e, false, {"id"}, upd);
  }

  /** Writing the relation attribute of a parent. */
  lemma ParentUpdate(before: Value, after: Value)
    ensures SetAttr(ParentInstance(before), "child", after) == ParentInstance(after)
  {
    var updated := SetAttr(ParentInstance(before), "child", after);
    var target := ParentInstance(after);
    assert updated.attrs.Keys == target.attrs.Keys;
    assert forall k | k in updated.attrs :: updated.attrs[k] == target.attrs[k];
  }

  /** The parent's relation step hands `data['child']` to the child. */
  lemma ParentRelationStep(e: Entry<Value>)
    requires e == Entry("child", PlainDict([Entry("name", Str("d"))]))
    ensures FollowRelationFromDict(ParentInstance(Obj(NamedInstance(2, "c"))), 1, Entry("child", NoKwargs), [e], false)
            == Applied(ParentInstance(Obj(NamedInstance(2, "d"))), None)
  {
    ParentShape();
    assert "child" in Keys([e]) by {
      assert [e][0].key == "child";
    }
    assert Get([e], "child") == Some(e.val) by {
      assert [e][..0] == [];
    }
    NamedFromDictColumn(2, "c", "d");
    ParentUpdate(Obj(NamedInstance(2, "c")), Obj(NamedInstance(2, "d")));
  }

  /** The parent's follow loop is its one relation step. */
  lemma ParentFollowLoop(e: Entry<Value>)
    requires e == Entry("child", PlainDict([Entry("name", Str("d"))]))
    ensures FollowFromDict(ParentInstance(Obj(NamedInstance(2, "c"))), 1, [Entry("child", NoKwargs)], [e], false)
            == Applied(ParentInstance(Obj(NamedInstance(2, "d"))), None)
  {
    ParentRelationStep(e);
    assert [Entry("child", NoKwargs)][1..] == [];
  }

  /** `fromdict` with `follow=['child']` updates the child through the
      child's own `fromdict`, and writes nothing else. */
  lemma FromDictFollowsChild()
    ensures var data := PlainDict([Entry("child", PlainDict([Entry("name", Str("d"))]))]);
            FromDict(ParentInstance(Obj(NamedInstance(2, "c"))), data, FollowChild)
            == Applied(ParentInstance(Obj(NamedInstance(2, "d"))), None)
  {
    var inst := ParentInstance(Obj(NamedInstance(2, "c")));
    var e := Entry("child", PlainDict([Entry("name", Value.Str("d"))]));
    FollowChildNormalized();
    ParentSimpleLoop(Obj(NamedInstance(2, "c")), e);
    FromDictSteps(inst, PlainDict([e]), FollowChild, false);
    ParentFollowLoop(e);
  }
}

=== FILE: metadata.dfy ===
/** Mapped classes as explicit descriptor tables, instances as attribute
    maps, and the metadata accessors of dictalchemy/utils.py:11-50. The
    descriptor table stands in for the mapper's `iterate_properties`. */
module Metadata {
  import opened Results
  import opened Dicts

  /** An underlying table column and its `primary_key` flag. A property key
      need not equal its column name (`id` over column `other_id`). */
  datatype TableColumn = TableColumn(name: string, primaryKey: bool)

  /** The kinds of mapper property the layer distinguishes. Only column
      properties have underlying columns. */
  datatype Kind =
    | ColumnProperty(columns: seq<TableColumn>)
    | SynonymProperty
    | RelationshipProperty

  /** One mapper property: its key and its kind. */
  datatype Descriptor = Descriptor(key: string, kind: Kind)

  datatype PropertyType = Column | Synonym | Relationship

  function TypeOf(d: Descriptor): PropertyType
  {
    match d.kind
    case ColumnProperty(_) => Column
    case SynonymProperty => Synonym
    case RelationshipProperty => Relationship
  }

  /** The five class attributes `make_class_dictable` writes. `None` means
      the attribute is not set on the class at all; a list attribute set to
      Python `None` behaves as the empty list and is written `Some([])`. */
  datatype ClassConfig = ClassConfig(
    exclude: Option<seq<string>>,           // dictalchemy_exclude
    excludeUnderscore: Option<bool>,        // dictalchemy_exclude_underscore
    fromdictAllowPk: Option<bool>,          // dictalchemy_fromdict_allow_pk
    asdictInclude: Option<seq<string>>,     // dictalchemy_asdict_include
    fromdictInclude: Option<seq<string>>)   // dictalchemy_fromdict_include

  const Unconfigured := ClassConfig(None, None, None, None, None)

  /** A mapped class: its properties in mapper order, its configuration, and
      whether it carries the `asdict`/`fromdict`/`__iter__` behaviours. */
  datatype MappedClass = MappedClass(name: string, props: seq<Descriptor>, config: ClassConfig, dictable: bool)

  /** Attribute values, and the values `asdict` produces. */
  datatype Value =
    | Null
    | Int(i: int)
    | Str(s: string)
    | Obj(inst: Instance)                    // a mapped instance
    | InstrumentedList(items: seq<Value>)    // a list-valued relationship collection
    | OtherCollection(items: seq<Value>)     // a set or keyed relationship collection
    | PlainDict(entries: Dict<Value>)        // a Python dict
    | PlainList(items: seq<Value>)           // a Python list

  /** An instance: its class and its attributes by key. */
  datatype Instance = Instance(cls: MappedClass, attrs: map<string, Value>)

  /** The keys of the properties of one type, in mapper order. */
  function KeysOfType(ps: seq<Descriptor>, t: PropertyType): (ks: seq<string>)
    ensures |ks| <= |ps|
    ensures forall k :: k in ks <==> exists i :: 0 <= i < |ps| && ps[i].key == k && TypeOf(ps[i]) == t
  {
    if |ps| == 0 then []
    else
      var rest := KeysOfType(ps[1..], t);
      assert forall i :: 1 <= i < |ps| ==> ps[i] == ps[1..][i - 1];
      if TypeOf(ps[0]) == t then [ps[0].key] + rest else rest
  }

  /** `get_relation_keys`. */
  function RelationKeys(c: MappedClass): seq<string>
  {
    KeysOfType(c.props, Relationship)
  }

  /** `get_column_keys`. */
  function ColumnKeys(c: MappedClass): seq<string>
  {
    KeysOfType(c.props, Column)
  }

  /** `get_synonym_keys`. */
  function SynonymKeys(c: MappedClass): seq<string>
  {
    KeysOfType(c.props, Synonym)
  }

  /** Whether any of a property's underlying columns is a primary key. */
  predicate HasPrimaryKeyColumn(d: Descriptor)
  {
    d.kind.ColumnProperty? && exists j :: 0 <= j < |d.kind.columns| && d.kind.columns[j].primaryKey
  }

  function AnyPrimaryKey(cols: seq<TableColumn>): (b: bool)
    ensures b <==> exists j :: 0 <= j < |cols| && cols[j].primaryKey
  {
    if |cols| == 0 then false
    else
      assert forall j :: 1 <= j < |cols| ==> cols[j] == cols[1..][j - 1];
      cols[0].primaryKey || AnyPrimaryKey(cols[1..])
  }

  /** The property keys `get_primary_key_properties` collects from a table. */
  function PrimaryKeyKeys(ps: seq<Descriptor>): (ks: set<string>)
    ensures forall k :: k in ks <==> exists i :: 0 <= i < |ps| && ps[i].key == k && HasPrimaryKeyColumn(ps[i])
  {
    if |ps| == 0 then {}
    else
      var rest := PrimaryKeyKeys(ps[1..]);
      assert forall i :: 1 <= i < |ps| ==> ps[i] == ps[1..][i - 1];
      var here := ps[0].kind.ColumnProperty? && AnyPrimaryKey(ps[0].kind.columns);
      if here then {ps[0].key} + rest else rest
  }

  /** `get_primary_key_properties`: keys, not column names, of the properties
      with a primary-key column. */
  function PrimaryKeyProperties(c: MappedClass): set<string>
  {
    PrimaryKeyKeys(c.props)
  }

  predicate StartsWithUnderscore(k: string)
  {
    |k| > 0 && k[0] == '_'
  }

  function UnderscoreKeysOf(ps: seq<Descriptor>): (ks: set<string>)
    ensures forall k :: k in ks <==> exists i :: 0 <= i < |ps| && ps[i].key == k && StartsWithUnderscore(k)
  {
    if |ps| == 0 then {}
    else
      var rest := UnderscoreKeysOf(ps[1..]);
      assert forall i :: 1 <= i < |ps| ==> ps[i] == ps[1..][i - 1];
      if StartsWithUnderscore(ps[0].key) then {ps[0].key} + rest else rest
  }

  /** The keys of every property, of any kind, that start with `_`. */
  function UnderscoreKeys(c: MappedClass): set<string>
  {
    UnderscoreKeysOf(c.props)
  }

  /** `hasattr(v, 'asdict')`: an instance of a class carrying the behaviours. */
  predicate IsDictable(v: Value)
  {
    v.Obj? && v.inst.cls.dictable
  }

  /** `getattr(inst, k)`. */
  function GetAttr(inst: Instance, k: string): (r: Result<Value>)
    ensures r.Ok? <==> k in inst.attrs
    ensures r.Ok? ==> r.value == inst.attrs[k]
    ensures r.Err? ==> r.error == NoAttribute(k)
  {
    if k in inst.attrs then Ok(inst.attrs[k]) else Err(NoAttribute(k))
  }

  /** `setattr(inst, k, v)`. */
  function SetAttr(inst: Instance, k: string, v: Value): (r: Instance)
    ensures r.cls == inst.cls
    ensures r.attrs.Keys == inst.attrs.Keys + {k}
    ensures r.attrs[k] == v
    ensures forall j :: j in inst.attrs && j != k ==> r.attrs[j] == inst.attrs[j]
  {
    Instance(inst.cls, inst.attrs[k := v])
  }
}

=== FILE: results.dfy ===
/** Optional values, results, and the exceptions the conversion layer raises. */
module Results {

  /** A value that may be missing: an optional keyword argument, or a class
      attribute that may not be set. */
  datatype Option<+T> = None | Some(value: T) {

    /** The value, or `default` when there is none (Python's `getattr(obj, name, default)`). */
    function GetOr(default: T): T {
      match this
      case Some(v) => v
      case None => default
    }
  }

  /** The exceptions `asdict` and `fromdict` can raise, named after their cause. */
  datatype Error =
    | UnexpectedKeyword(name: string)  // TypeError: a keyword the callee does not accept
    | MalformedFollow                  // TypeError: `follow` is neither a dict nor a list of names
    | NoAttribute(name: string)        // AttributeError: `getattr` of a missing attribute
    | NotARelation(key: string)        // ValueError: a follow key that is not a relationship
    | PrimaryKeyUpdate(key: string)    // Exception: a primary key in `data` without `allow_pk`
    | NotAMapping                      // a value used as a dict that is not one

  /** The outcome of a conversion that may raise. */
  datatype Result<+T> = Ok(value: T) | Err(error: Error) {

    predicate IsFailure() {
      Err?
    }

    function PropagateFailure<U>(): Result<U>
      requires Err?
    {
      Err(error)
    }

    function Extract(): T
      requires Ok?
    {
      value
    }
  }
}

=== FILE: roundtrip.dfy ===
/** How `asdict` and `fromdict` (dictalchemy/utils.py:53-206) invert each
    other: applying an instance's own dict back onto it changes nothing,
    provided the primary key is kept out of the dict or allowed in. */
module RoundTrip {
  import opened Results
  import opened Dicts
  import opened Metadata
  import opened Config
  import opened Serializer
  import opened Deserializer

  /** `inst.fromdict(inst.asdict(**a), **f)` without `follow` leaves the
      instance as it was and raises nothing, when `asdict` drops the primary
      keys (`exclude_pk=True`) or `fromdict` accepts them (`allow_pk`). */
  lemma AsDictFromDict(inst: Instance, a: Kwargs, f: Kwargs)
    requires AsDict(inst, a).Ok?
    requires a.follow.None? && f.follow.None? && f.excludePk.Omitted?
    requires a.excludePk == Given(Some(true)) || ResolveAllowPk(inst.cls, f)
    ensures FromDict(inst, PlainDict(AsDict(inst, a).value), f) == Applied(inst, None)
  {
    var d := AsDict(inst, a).value;
    var data := PlainDict(d);
    assert FollowKeys(a) == {} && FollowKeys(f) == {};
    assert forall k :: k in Keys(d) ==> k !in PrimaryKeyProperties(inst.cls) || ResolveAllowPk(inst.cls, f);
    FromDictSteps(inst, data, f, false);
    var r := FromDict(inst, data, f);
    assert r.err.None?;
    assert r.inst.attrs == inst.attrs by {
      forall k | k in r.inst.attrs ensures k in inst.attrs && r.inst.attrs[k] == inst.attrs[k] {
      }
    }
  }
}

=== FILE: serializer.dfy ===
/** `asdict` and `iter` (dictalchemy/utils.py:53-124 and 209-212). */
module Serializer {
  import opened Results
  import opened Dicts
  import opened Metadata
  import opened Config

  /** The dict of every candidate key that is not excluded, each bound to
      its attribute value unchanged (utils.py:104-105). A missing attribute
      raises, at the first such key. */
  function BaseDict(inst: Instance, keys: seq<string>, exclude: set<string>): (r: Result<Dict<Value>>)
    ensures r.Ok? <==> forall k :: k in keys && k !in exclude ==> k in inst.attrs
    ensures r.Err? ==> r.error.NoAttribute?
    ensures r.Ok? ==> forall k :: k in Keys(r.value) <==> k in keys && k !in exclude
    ensures r.Ok? ==> forall k :: k in Keys(r.value) ==> k in inst.attrs && Get(r.value, k) == Some(inst.attrs[k])
    decreases |keys|
  {
    if |keys| == 0 then Ok([])
    else
      var front := keys[..|keys| - 1];
      var k := keys[|keys| - 1];
      assert keys == front + [k];
      assert forall j :: j in keys <==> j in front || j == k;
      var r :- BaseDict(inst, front, exclude);
      if k in exclude then Ok(r)
      else
        var v :- GetAttr(inst, k);
        assert forall j :: Get(r + [Entry(k, v)], j) == if j == k then Some(v) else Get(r, j) by {
          forall j ensures Get(r + [Entry(k, v)], j) == if j == k then Some(v) else Get(r, j) {
            GetAppend(r, Entry(k, v), j);
          }
        }
        GetAppend(r, Entry(k, v), k);
        Ok(r + [Entry(k, v)])
  }

  /** `asdict(inst, **kw)`. A call passing `allow_pk` raises before anything
      else; then `follow` is normalised, the base dict is built, and each
      followed relation is converted in turn. */
  function AsDict(inst: Instance, kw: Kwargs): (r: Result<Dict<Value>>)
    decreases Depth(kw), 2
    ensures kw.allowPk.Given? ==> r == Err(UnexpectedKeyword("allow_pk"))
    ensures kw.allowPk.Omitted? && kw.follow.None?
            && (forall k :: k in AsdictCandidates(inst.cls, kw) && k !in AsdictExclude(inst.cls, kw) ==> k in inst.attrs)
            ==> r.Ok?
    ensures r.Ok? ==> kw.allowPk.Omitted? && NormalizeFollow(kw).Ok?
    ensures r.Ok? ==> forall k :: k in FollowKeys(kw) ==> k in RelationKeys(inst.cls) && k in inst.attrs
    ensures r.Ok? ==> forall k :: k !in FollowKeys(kw) ==>
              (k in Keys(r.value) <==> k in AsdictCandidates(inst.cls, kw) && k !in AsdictExclude(inst.cls, kw))
    ensures r.Ok? ==> forall k :: k !in FollowKeys(kw) && k in Keys(r.value) ==>
              k in inst.attrs && Get(r.value, k) == Some(inst.attrs[k])
  {
    if kw.allowPk.Given? then Err(UnexpectedKeyword("allow_pk"))
    else
      var follow :- NormalizeFollow(kw);
      var base :- BaseDict(inst, AsdictCandidates(inst.cls, kw), AsdictExclude(inst.cls, kw));
      FollowAsDict(inst, Depth(kw), follow, base)
  }

  /** The follow loop of `asdict` (utils.py:107-122): the relations are
      converted in turn, each written over the dict built so far. */
  function FollowAsDict(inst: Instance, ghost bound: nat, follow: Dict<Kwargs>, acc: Dict<Value>): (r: Result<Dict<Value>>)
    requires forall i :: 0 <= i < |follow| ==> Depth(follow[i].val) < bound
    decreases bound, 1, |follow|
    ensures r.Ok? ==> forall i :: 0 <= i < |follow| ==> follow[i].key in RelationKeys(inst.cls) && follow[i].key in inst.attrs
    ensures (exists i :: 0 <= i < |follow| && follow[i].key !in RelationKeys(inst.cls)) ==> r.Err?
    ensures |follow| > 0 && follow[0].key !in RelationKeys(inst.cls) ==> r == Err(NotARelation(follow[0].key))
    ensures r.Ok? ==> forall k :: k !in Keys(follow) ==> Get(r.value, k) == Get(acc, k)
    ensures r.Ok? ==> forall k :: k !in Keys(follow) ==> (k in Keys(r.value) <==> k in Keys(acc))
  {
    if |follow| == 0 then Ok(acc)
    else
      var rest := follow[1..];
      assert forall i :: 1 <= i < |follow| ==> follow[i] == rest[i - 1];
      assert Keys(follow) == {follow[0].key} + Keys(rest) by {
        GetPrepend(follow[0], rest, follow[0].key);
        assert follow == [follow[0]] + rest;
      }
      var acc' :- FollowRelationAsDict(inst, bound, follow[0], acc);
      FollowAsDict(inst, bound, rest, acc')
  }

  /** One followed relation `k` with its bundle: `k` must name a
      relationship and be set on the instance; its converted value, if any,
      is written under `k`. */
  function FollowRelationAsDict(inst: Instance, ghost bound: nat, e: Entry<Kwargs>, acc: Dict<Value>): (r: Result<Dict<Value>>)
    requires Depth(e.val) < bound
    decreases bound, 0
    ensures r.Ok? ==> e.key in RelationKeys(inst.cls) && e.key in inst.attrs
    ensures e.key !in RelationKeys(inst.cls) ==> r == Err(NotARelation(e.key))
    ensures r.Ok? ==> forall j :: j != e.key ==> Get(r.value, j) == Get(acc, j)
  {
    var k := e.key;
    if k !in RelationKeys(inst.cls) then Err(NotARelation(k))
    else
      var rel :- GetAttr(inst, k);
      var converted :- FollowedValue(rel, e.val);
      if converted.Some? then
        assert forall j :: Get(acc + [Entry(k, converted.value)], j) == if j == k then Some(converted.value) else Get(acc, j) by {
          forall j ensures Get(acc + [Entry(k, converted.value)], j) == if j == k then Some(converted.value) else Get(acc, j) {
            GetAppend(acc, Entry(k, converted.value), j);
          }
        }
        Ok(acc + [Entry(k, converted.value)])
      else Ok(acc)
  }

  /** The first follow key that is not a relationship raises `ValueError`
      (utils.py:108-111), unless a relation before it has already raised:
      the loop's outcome is that of the relations before it, turned into
      `NotARelation` when they all completed. */
  lemma {:induction false} FirstNonRelationRaises(inst: Instance, bound: nat, follow: Dict<Kwargs>, acc: Dict<Value>, i: int)
    requires forall j :: 0 <= j < |follow| ==> Depth(follow[j].val) < bound
    requires 0 <= i < |follow| && follow[i].key !in RelationKeys(inst.cls)
    requires forall j :: 0 <= j < i ==> follow[j].key in RelationKeys(inst.cls)
    ensures FollowAsDict(inst, bound, follow, acc) ==
              match FollowAsDict(inst, bound, follow[..i], acc)
              case Ok(_) => Err(NotARelation(follow[i].key))
              case Err(e) => Err(e)
    decreases i
  {
    if i == 0 {
      assert follow[..0] == [];
    } else {
      var rest := follow[1..];
      assert forall j :: 1 <= j < |follow| ==> follow[j] == rest[j - 1];
      assert follow[..i][1..] == rest[..i - 1];
      assert follow[..i][0] == follow[0];
      var step := FollowRelationAsDict(inst, bound, follow[0], acc);
      if step.Ok? {
        FirstNonRelationRaises(inst, bound, rest, step.value, i - 1);
      }
    }
  }

  /** A relation step's result under its own key: the converted value, or
      the previous entry when nothing was converted. */
  lemma RelationStepAt(inst: Instance, bound: nat, e: Entry<Kwargs>, acc: Dict<Value>)
    requires Depth(e.val) < bound
    requires FollowRelationAsDict(inst, bound, e, acc).Ok?
    ensures FollowedValue(inst.attrs[e.key], e.val).Ok?
    ensures Get(FollowRelationAsDict(inst, bound, e, acc).value, e.key) ==
              match FollowedValue(inst.attrs[e.key], e.val).value
              case Some(v) => Some(v)
              case None => Get(acc, e.key)
  {
    var converted := FollowedValue(inst.attrs[e.key], e.val).value;
    if converted.Some? {
      GetAppend(acc, Entry(e.key, converted.value), e.key);
    }
  }

  /** What one followed relation contributes (utils.py:112-122): a dictable
      value its own `asdict(**bundle)`, an instrumented list the list of its
      children's conversions, anything else nothing. */
  function FollowedValue(rel: Value, bundle: Kwargs): (r: Result<Option<Value>>)
    decreases Depth(bundle), 5
    ensures r.Ok? ==> (r.value.Some? <==> IsDictable(rel) || rel.InstrumentedList?)
    ensures r.Ok? && IsDictable(rel) ==> r.value.Some? && r.value.value.PlainDict?
    ensures r.Ok? && !IsDictable(rel) && rel.InstrumentedList? ==>
              r.value.Some? && r.value.value.PlainList? && |r.value.value.items| == |rel.items|
  {
    if IsDictable(rel) then
      var d :- AsDict(rel.inst, bundle);
      Ok(Some(PlainDict(d)))
    else if rel.InstrumentedList? then
      var cs :- ChildrenAsDict(rel.items, bundle);
      Ok(Some(PlainList(cs)))
    else
      Ok(None)
  }

  /** The children of a followed list, converted in their original order. */
  function ChildrenAsDict(items: seq<Value>, bundle: Kwargs): (r: Result<seq<Value>>)
    decreases Depth(bundle), 4, |items|
    ensures r.Ok? ==> |r.value| == |items|
    ensures r.Ok? ==> forall j :: 0 <= j < |items| ==> ChildAsDict(items[j], bundle) == Ok(r.value[j])
  {
    if |items| == 0 then Ok([])
    else
      var c :- ChildAsDict(items[0], bundle);
      var cs :- ChildrenAsDict(items[1..], bundle);
      assert forall j :: 1 <= j < |items| ==> items[j] == items[1..][j - 1];
      Ok([c] + cs)
  }

  /** One child of a followed list: `child.asdict(**bundle)` when it is
      dictable, else `dict(child)`, which only a dict survives. */
  function ChildAsDict(child: Value, bundle: Kwargs): (r: Result<Value>)
    decreases Depth(bundle), 3
    ensures r.Ok? && !IsDictable(child) ==> child.PlainDict? && r.value == child
    ensures !IsDictable(child) ==> (r.Ok? <==> child.PlainDict?)
    ensures IsDictable(child) ==> (r.Ok? <==> AsDict(child.inst, bundle).Ok?)
    ensures r.Ok? && IsDictable(child) ==> r.value == PlainDict(AsDict(child.inst, bundle).value)
  {
    if IsDictable(child) then
      var d :- AsDict(child.inst, bundle);
      Ok(PlainDict(d))
    else if child.PlainDict? then Ok(child)
    else Err(NotAMapping)
  }

  /** `iter(inst)`: the pairs of `inst.asdict()`. */
  function Iter(inst: Instance): (r: Result<Dict<Value>>)
    ensures r.Ok? <==> inst.cls.dictable && AsDict(inst, NoKwargs).Ok?
    ensures r.Ok? ==> DistinctKeys(r.value)
    ensures r.Ok? ==> Keys(r.value) == Keys(AsDict(inst, NoKwargs).value)
    ensures r.Ok? ==> forall i :: 0 <= i < |r.value| ==> Get(AsDict(inst, NoKwargs).value, r.value[i].key) == Some(r.value[i].val)
  {
    if !inst.cls.dictable then Err(NoAttribute("asdict"))
    else
      var d :- AsDict(inst, NoKwargs);
      assert forall i :: 0 <= i < |Items(d)| ==> Get(d, Items(d)[i].key) == Some(Items(d)[i].val) by {
        forall i | 0 <= i < |Items(d)| ensures Get(d, Items(d)[i].key) == Some(Items(d)[i].val) {
          ItemsArePairs(d, i);
        }
      }
      Ok(Items(d))
  }

  /** Reading one followed key of the follow loop's result: the converted
      relation value, or what was there before when nothing was converted. */
  lemma {:induction false} FollowAsDictAt(inst: Instance, bound: nat, follow: Dict<Kwargs>, acc: Dict<Value>, i: int)
    requires forall i :: 0 <= i < |follow| ==> Depth(follow[i].val) < bound
    requires DistinctKeys(follow)
    requires FollowAsDict(inst, bound, follow, acc).Ok?
    requires 0 <= i < |follow|
    ensures follow[i].key in inst.attrs
    ensures FollowedValue(inst.attrs[follow[i].key], follow[i].val).Ok?
    ensures Get(FollowAsDict(inst, bound, follow, acc).value, follow[i].key) ==
              match FollowedValue(inst.attrs[follow[i].key], follow[i].val).value
              case Some(v) => Some(v)
              case None => Get(acc, follow[i].key)
    decreases |follow|
  {
    var rest := follow[1..];
    assert forall j :: 1 <= j < |follow| ==> follow[j] == rest[j - 1];
    var acc' := FollowRelationAsDict(inst, bound, follow[0], acc).value;
    assert FollowAsDict(inst, bound, follow, acc) == FollowAsDict(inst, bound, rest, acc');
    var k := follow[i].key;
    if i == 0 {
      assert k !in Keys(rest) by {
        assert forall j :: 0 <= j < |rest| ==> rest[j].key != k;
      }
      RelationStepAt(inst, bound, follow[0], acc);
    } else {
      assert rest[i - 1] == follow[i] && k != follow[0].key;
      FollowAsDictAt(inst, bound, rest, acc', i - 1);
    }
  }

  /** The follow loop's result under a followed key `k`: the converted
      relation value, or the base dict's entry when nothing was converted. */
  lemma FollowedLookup(inst: Instance, kw: Kwargs, k: string)
    requires AsDict(inst, kw).Ok?
    requires k in FollowKeys(kw)
    ensures k in inst.attrs
    ensures FollowedValue(inst.attrs[k], FollowBundle(kw, k)).Ok?
    ensures Get(AsDict(inst, kw).value, k) ==
              match FollowedValue(inst.attrs[k], FollowBundle(kw, k)).value
              case Some(v) => Some(v)
              case None =>
                if k in AsdictCandidates(inst.cls, kw) && k !in AsdictExclude(inst.cls, kw)
                then Some(inst.attrs[k]) else None
  {
    var follow := NormalizeFollow(kw).value;
    var base := BaseDict(inst, AsdictCandidates(inst.cls, kw), AsdictExclude(inst.cls, kw)).value;
    assert AsDict(inst, kw) == FollowAsDict(inst, Depth(kw), follow, base);
    var i :| 0 <= i < |follow| && follow[i].key == k;
    GetDistinct(follow, i);
    assert FollowBundle(kw, k) == follow[i].val;
    FollowAsDictAt(inst, Depth(kw), follow, base, i);
  }

  /** A followed relation holding a dictable instance is replaced by that
      instance's own `asdict(**bundle)` (utils.py:113-114). */
  lemma FollowedInstance(inst: Instance, kw: Kwargs, k: string)
    requires AsDict(inst, kw).Ok?
    requires k in FollowKeys(kw)
    requires k in inst.attrs && IsDictable(inst.attrs[k])
    ensures AsDict(inst.attrs[k].inst, FollowBundle(kw, k)).Ok?
    ensures Get(AsDict(inst, kw).value, k) == Some(PlainDict(AsDict(inst.attrs[k].inst, FollowBundle(kw, k)).value))
  {
    FollowedLookup(inst, kw, k);
  }

  /** A followed instrumented list becomes the list of its children's
      conversions, in the original order (utils.py:115-122). */
  lemma FollowedList(inst: Instance, kw: Kwargs, k: string)
    requires AsDict(inst, kw).Ok?
    requires k in FollowKeys(kw)
    requires k in inst.attrs && inst.attrs[k].InstrumentedList?
    ensures var items := inst.attrs[k].items;
            var b := FollowBundle(kw, k);
            exists cs: seq<Value> ::
              && Get(AsDict(inst, kw).value, k) == Some(PlainList(cs))
              && |cs| == |items|
              && forall j :: 0 <= j < |cs| ==>
                   if IsDictable(items[j])
                   then AsDict(items[j].inst, b).Ok? && cs[j] == PlainDict(AsDict(items[j].inst, b).value)
                   else items[j].PlainDict? && cs[j] == items[j]
  {
    FollowedLookup(inst, kw, k);
    var items := inst.attrs[k].items;
    var b := FollowBundle(kw, k);
    var cs := ChildrenAsDict(items, b).value;
    assert Get(AsDict(inst, kw).value, k) == Some(PlainList(cs));
    forall j | 0 <= j < |cs|
      ensures if IsDictable(items[j])
              then AsDict(items[j].inst, b).Ok? && cs[j] == PlainDict(AsDict(items[j].inst, b).value)
              else items[j].PlainDict? && cs[j] == items[j]
    {
      assert ChildAsDict(items[j], b) == Ok(cs[j]);
    }
  }

  /** Any other followed value (`None`, a set collection, a plain instance)
      adds nothing under its key (utils.py:112-122). */
  lemma FollowedOther(inst: Instance, kw: Kwargs, k: string)
    requires AsDict(inst, kw).Ok?
    requires k in FollowKeys(kw)
    requires k in inst.attrs && !IsDictable(inst.attrs[k]) && !inst.attrs[k].InstrumentedList?
    ensures Get(AsDict(inst, kw).value, k) ==
              if k in AsdictCandidates(inst.cls, kw) && k !in AsdictExclude(inst.cls, kw)
              then Some(inst.attrs[k]) else None
  {
    FollowedLookup(inst, kw, k);
  }

  /** A follow list of names passes no keywords down: each followed relation
      is converted with the defaults. */
  lemma FollowedByName(kw: Kwargs, k: string)
    requires kw.follow.Some? && kw.follow.value.FollowNames?
    requires k in kw.follow.value.names
    ensures k in FollowKeys(kw)
    ensures FollowBundle(kw, k) == NoKwargs
  {
    var follow := NormalizeFollow(kw).value;
    var i :| 0 <= i < |follow| && follow[i].key == k;
    GetDistinct(follow, i);
  }

  /** `exclude_underscore` (utils.py:87-93): for a property whose key starts
      with `_` and that no other rule excludes, the key is in the result
      exactly when underscore exclusion resolves false. */
  lemma UnderscorePolicy(inst: Instance, kw: Kwargs, k: string)
    requires AsDict(inst, kw).Ok?
    requires k !in FollowKeys(kw)
    requires exists i :: 0 <= i < |inst.cls.props| && inst.cls.props[i].key == k
    requires StartsWithUnderscore(k)
    ensures ResolveExcludeUnderscore(inst.cls, kw) ==> k !in Keys(AsDict(inst, kw).value)
    ensures !ResolveExcludeUnderscore(inst.cls, kw)
            && k in AsdictCandidates(inst.cls, kw)
            && k !in kw.exclude.GetOr([])
            && k !in inst.cls.config.exclude.GetOr(DefaultExclude)
            && !(kw.excludePk == Given(Some(true)) && k in PrimaryKeyProperties(inst.cls))
            ==> k in Keys(AsDict(inst, kw).value)
  {
    assert k in UnderscoreKeys(inst.cls);
  }

  /** `exclude_pk` (utils.py:38-50, 94-95): a primary-key property is dropped
      when `exclude_pk` is exactly `True`, and otherwise appears unless
      another rule excludes it. */
  lemma PrimaryKeyPolicy(inst: Instance, kw: Kwargs, k: string)
    requires AsDict(inst, kw).Ok?
    requires k !in FollowKeys(kw)
    requires exists i :: 0 <= i < |inst.cls.props| && inst.cls.props[i].key == k && HasPrimaryKeyColumn(inst.cls.props[i])
    ensures kw.excludePk == Given(Some(true)) ==> k !in Keys(AsDict(inst, kw).value)
    ensures kw.excludePk != Given(Some(true)) && k !in CommonExclude(inst.cls, kw) ==>
              k in Keys(AsDict(inst, kw).value) && Get(AsDict(inst, kw).value, k) == Some(inst.attrs[k])
  {
    var i :| 0 <= i < |inst.cls.props| && inst.cls.props[i].key == k && HasPrimaryKeyColumn(inst.cls.props[i]);
    assert TypeOf(inst.cls.props[i]) == Column;
    assert k in ColumnKeys(inst.cls);
    assert k in PrimaryKeyProperties(inst.cls);
  }

  /** A call's own `exclude` beats every include: an excluded key never
      appears in the base dict. */
  lemma ExcludeWins(inst: Instance, kw: Kwargs, k: string)
    requires AsDict(inst, kw).Ok?
    requires k !in FollowKeys(kw)
    requires k in kw.exclude.GetOr([]) || k in inst.cls.config.exclude.GetOr(DefaultExclude)
    ensures k !in Keys(AsDict(inst, kw).value)
  {
  }

  /** `iter` yields exactly the pairs of a default `asdict()`, each key once. */
  lemma IterPairs(inst: Instance, k: string, v: Value)
    requires Iter(inst).Ok?
    ensures (exists i :: 0 <= i < |Iter(inst).value| && Iter(inst).value[i] == Entry(k, v))
            <==> Get(AsDict(inst, NoKwargs).value, k) == Some(v)
  {
    var r := Iter(inst).value;
    var d := AsDict(inst, NoKwargs).value;
    if Get(d, k) == Some(v) {
      assert k in Keys(r);
      var i :| 0 <= i < |r| && r[i].key == k;
      assert r[i] == Entry(k, v);
    }
  }

  /** The follow loop sees a class only through its relationship keys. */
  lemma {:induction false} FollowAsDictSameView(i1: Instance, i2: Instance, bound: nat, follow: Dict<Kwargs>, acc: Dict<Value>)
    requires forall i :: 0 <= i < |follow| ==> Depth(follow[i].val) < bound
    requires i1.attrs == i2.attrs && RelationKeys(i1.cls) == RelationKeys(i2.cls)
    ensures FollowAsDict(i1, bound, follow, acc) == FollowAsDict(i2, bound, follow, acc)
    decreases |follow|
  {
    if |follow| > 0 {
      var rest := follow[1..];
      assert forall i :: 1 <= i < |follow| ==> follow[i] == rest[i - 1];
      var step := FollowRelationAsDict(i1, bound, follow[0], acc);
      assert step == FollowRelationAsDict(i2, bound, follow[0], acc);
      if step.Ok? {
        FollowAsDictSameView(i1, i2, bound, rest, step.value);
      }
    }
  }

  /** The base dict reads only the instance's attributes. */
  lemma {:induction false} BaseDictSameAttrs(i1: Instance, i2: Instance, keys: seq<string>, exclude: set<string>)
    requires i1.attrs == i2.attrs
    ensures BaseDict(i1, keys, exclude) == BaseDict(i2, keys, exclude)
    decreases |keys|
  {
    if |keys| > 0 {
      BaseDictSameAttrs(i1, i2, keys[..|keys| - 1], exclude);
    }
  }

  /** `asdict` sees a class only through its candidate keys, its exclude
      list and its relationship keys: two classes that agree on these give
      the same dict for the same attributes. */
  lemma AsDictSameView(i1: Instance, i2: Instance, kw: Kwargs)
    requires i1.attrs == i2.attrs && RelationKeys(i1.cls) == RelationKeys(i2.cls)
    requires AsdictCandidates(i1.cls, kw) == AsdictCandidates(i2.cls, kw)
    requires AsdictExclude(i1.cls, kw) == AsdictExclude(i2.cls, kw)
    ensures AsDict(i1, kw) == AsDict(i2, kw)
  {
    if kw.allowPk.Omitted? && NormalizeFollow(kw).Ok? {
      var base := BaseDict(i1, AsdictCandidates(i1.cls, kw), AsdictExclude(i1.cls, kw));
      BaseDictSameAttrs(i1, i2, AsdictCandidates(i1.cls, kw), AsdictExclude(i1.cls, kw));
      if base.Ok? {
        FollowAsDictSameView(i1, i2, Depth(kw), NormalizeFollow(kw).value, base.value);
      }
    }
  }
}
